=== FILE: README.md ===
# vos-stt: session clock, commit path and SubRip writer in Dafny

This project models the sequential core of the two speech-to-text front ends of
vos-stt.

**VosTtsController** (JavaFX):
- The start/stop button and the pause/resume button.
- The pausable session clock. Its fields are `paused`, `startTime`, `pauseAccum` and `pauseStarted`.
- The `HH:MM:SS` timer text.
- The gate of the capture loop. A chunk reaches the recognizer only while `running`; a negative read length ends the loop.
- The commit path of recognition results. It keeps a rolling display of three lines with new/old styling. It writes `text` plus a line separator to `transcript.txt` while a writer is open.

**TranscriberApp** (Swing):
- The start/stop button, and how it is enabled.
- The capture loop.
- The SubRip (`.srt`) writer: numbered blocks, contiguous timings, and `formatSrtTime`.

Wall-clock time is an explicit parameter `now` in milliseconds. The recognizer is abstracted as a sequence of `Final(text)` / `Partial(text)` events; an absent JSON field is the empty text. The background worker is a sequential step function: each chunk input is one loop iteration, interleaved with button presses in the order they happen.

Modules:
- `Basics`: shared definitions.
- `JavaInt`: Java's truncating `/` and `%`.
- `Decimal`: `%0wd` formatting and reading digits back.
- `SessionClock`: the clock and the timer text.
- `SrtTime`: SubRip time stamps and timing lines.
- `Recognition`: the event datatype.
- `TranscriptBuffer`: the three-line display.
- `VosController`: VosTtsController.
- `Transcriber`: TranscriberApp.

The `.srt` file is modelled as its earlier contents followed by the list of blocks appended to it. `FileText` renders that list as text, and `ParseBlock` reads one block back.

Behaviour of the code that the model keeps as written:
- Pausing sets `running` to false. The loop keeps reading chunks during a pause and drops them.
- A press of the start button during a pause therefore takes the start branch. A new session begins while the live loop keeps its writer. The task reference now points to a new task queued behind that loop on the single-thread executor (`PressDuringPauseStartsSession`).
- The next press stops, and cancelling reaches only that queued task. The live loop keeps reading with its writer cleared. Right after the stop `running` is false, so its chunks are dropped. Once a later press sets `running` again, its finals reach the display but no longer the transcript (`StopAfterQueuedStartKeepsLoop`).
- Stopping leaves the task reference set, so the pause/resume button still works after a stop. A pause and a resume then set `running` with no writer behind it, and the next press of the start button stops instead of starting (`ResumeAfterStopSwallowsStart`).

## Model

| member | source | states |
|---|---|---|
| Decimal.FormatInt | src/main/java/com/example/TranscriberApp.java:348 | `%0wd` of a non-negative number is all digits, reads back as the number, and has length max(digit count, w); a negative number gets a leading `-` and its magnitude reads back |
| SessionClock.Restart | src/main/java/com/example/vostts/VosTtsController.java:180-183 | starting leaves the clock unpaused and consistent, with elapsed time `t - now` at every later `t`, so 0 at the start instant |
| SessionClock.Toggle | src/main/java/com/example/vostts/VosTtsController.java:142-154 | `paused` flips; pausing freezes elapsed time at its value at `now` for every later time; resuming continues from that value with no jump; consistency is kept |
| SessionClock.ElapsedNonNegative | src/main/java/com/example/vostts/VosTtsController.java:317 | on a consistent clock, active time is never negative |
| SessionClock.ElapsedFrozenWhilePaused | src/main/java/com/example/vostts/VosTtsController.java:317 | while paused, elapsed time is the same at every wall-clock time |
| SessionClock.ElapsedAdvancesWhileRunning | src/main/java/com/example/vostts/VosTtsController.java:317 | while not paused, elapsed time advances exactly with the wall clock |
| SessionClock.PauseResumeNoDrift | src/main/java/com/example/vostts/VosTtsController.java:142-151 | a pause at t1 and a resume at any t2 >= t1 leave elapsed time at its value at t1 |
| SessionClock.TimerFields | src/main/java/com/example/vostts/VosTtsController.java:318-321 | `h*3600 + m*60 + s == secs`, `m` and `s` below 60 in magnitude, and all fields non-negative for non-negative `secs` |
| SessionClock.HmsText | src/main/java/com/example/vostts/VosTtsController.java:319-322 | the `%02d:%02d:%02d` text of a non-negative second count reads back as exactly that count under a parser that accepts only minutes and seconds below 60 and hours as `%02d` prints them; its hours are zero-padded to at least two digits (length 6 plus max(hour digits, 2)) |
| SessionClock.ParseHmsCanonical | src/main/java/com/example/vostts/VosTtsController.java:318-322 | any text that reads back as a second count is exactly the timer text of that count, so the read-back of `HmsText` and `TimerText` pins their text |
| SessionClock.TimerText | src/main/java/com/example/vostts/VosTtsController.java:314-323 | on a consistent clock the timer label reads back as the whole seconds of active time (and so, by `ParseHmsCanonical`, is their `%02d:%02d:%02d` text) |
| SrtTime.SrtFields | src/main/java/com/example/TranscriberApp.java:343-347 | `h*3600000 + m*60000 + s*1000 + milli == ms`, with m, s below 60 and milli below 1000 in magnitude; for `ms >= 0` all fields are non-negative and `h == ms / 3600000` |
| SrtTime.FormatSrtTime | src/main/java/com/example/TranscriberApp.java:343-349 | a non-negative stamp `HH:MM:SS,mmm` reads back as exactly `ms` under a parser that accepts only minutes and seconds below 60 and hours as `%02d` prints them; it holds only digits, `:` and `,`, and has its hours zero-padded to at least two digits (length 10 plus max(hour digits, 2)) |
| SrtTime.ParseSrtTimeCanonical | src/main/java/com/example/TranscriberApp.java:343-349 | any text that reads back as a millisecond count is exactly `formatSrtTime` of that count |
| SrtTime.TimingLine | src/main/java/com/example/TranscriberApp.java:330 | the line `start --> end` reads back as both times when they are non-negative, and holds only digits, `:`, `,`, space, `-` and `>` |
| SrtTime.ParseTimingCanonical | src/main/java/com/example/TranscriberApp.java:330 | any line that reads back as two times is exactly the timing line of those times, both non-negative |
| TranscriptBuffer.Evict | src/main/java/com/example/vostts/VosTtsController.java:338-341 | evicting from the front leaves the newest three lines (all of them when fewer) |
| TranscriptBuffer.Push | src/main/java/com/example/vostts/VosTtsController.java:337-341 | after a commit the deque holds 1 to 3 lines with the new one last; the oldest goes only when the deque was full |
| TranscriptBuffer.PushAllKeepsNewest | src/main/java/com/example/vostts/VosTtsController.java:337-341 | after any number of commits the deque is exactly the newest three of all lines, in order |
| TranscriptBuffer.Restyle | src/main/java/com/example/vostts/VosTtsController.java:342-349 | of n labels exactly the last is `transcript-new`; all others are `transcript-old` |
| VosController.InitInv | src/main/java/com/example/vostts/VosTtsController.java:52-65 | the freshly constructed controller satisfies the reachable-state invariant |
| VosController.StartTranscription | src/main/java/com/example/vostts/VosTtsController.java:169-195 | no effect unless the model is ready; otherwise running, unpaused, elapsed 0 at `now`, a live loop, partial label cleared; when no loop was live, the new task is the loop and has a fresh empty transcript; when one was, the task reference points to a queued task and the writer and transcript are unchanged; the display, model flag and separator are untouched |
| VosController.WorkerExit | src/main/java/com/example/vostts/VosTtsController.java:276-290 | when the loop ends the session stops running and the writer is cleared; clock, display, transcript, partial label, task reference, model flag and separator are untouched |
| VosController.StopTranscription | src/main/java/com/example/vostts/VosTtsController.java:197-223 | running and writer cleared, partial label cleared; the loop ends only when the referenced task is the live loop, and a cancelled queued task leaves the live loop as it was; clock (including `paused`), display, transcript, task reference, model flag and separator unchanged |
| VosController.OnStart | src/main/java/com/example/vostts/VosTtsController.java:85-93 | a running session is stopped: the result is exactly `StopTranscription`, so it is no longer running, the writer is cleared and the transcript is unchanged; otherwise a session is started, exactly as `StartTranscription` does |
| VosController.OnPauseResume | src/main/java/com/example/vostts/VosTtsController.java:140-155 | no effect before the first session; otherwise `paused` flips, `running == !paused`, pausing freezes elapsed time, resuming continues without a jump; loop, writer, display, transcript, partial label, task reference, model flag and separator unchanged |
| VosController.WriteLine | src/main/java/com/example/vostts/VosTtsController.java:325-360 | the display gets the line pushed; the transcript grows by `text` plus separator exactly when a writer is open and is otherwise unchanged; it is only ever appended to |
| VosController.Feed | src/main/java/com/example/vostts/VosTtsController.java:293-312 | empty texts have no effect; a non-empty final commits one line and shows it; a partial changes nothing but the partial label, which shows its text when non-empty |
| VosController.ReadChunk | src/main/java/com/example/vostts/VosTtsController.java:259-271 | a negative read length by the live loop is exactly the loop's exit (`WorkerExit`), which changes nothing but the running, loop and writer flags; a chunk is fed only while running; when not running, display, transcript and label are unchanged |
| VosController.StepInv | src/main/java/com/example/vostts/VosTtsController.java:85-223 | every button press and loop iteration keeps the invariant: running implies unpaused and a task, an open writer belongs to a live loop, a live loop has a task, at most three lines, consistent clock |
| VosController.RunInv | src/main/java/com/example/vostts/VosTtsController.java:85-223 | the invariant holds along every run with a monotone clock |
| VosController.ReadsWhileNotRunningChangeNothing | src/main/java/com/example/vostts/VosTtsController.java:259-270 | while not running (in particular paused), any number of reads leave display, transcript, label and clock unchanged |
| VosController.ReadsWhileRunningCommitFinals | src/main/java/com/example/vostts/VosTtsController.java:259-303 | while running with an open writer, the transcript grows by exactly the non-empty finals, each followed by the separator, and the display is the newest three of all lines |
| VosController.NothingWrittenAfterStop | src/main/java/com/example/vostts/VosTtsController.java:197-206 | once the writer is cleared, whether or not a loop is still live, no sequence of reads and pause/resume presses writes to the transcript |
| VosController.PressDuringPauseStartsSession | src/main/java/com/example/vostts/VosTtsController.java:85-93 | a press during a pause starts a new session at elapsed time 0, unpaused; when a loop is live, the task reference points to a queued task and the loop keeps its writer and transcript |
| VosController.ResumeAfterStopSwallowsStart | src/main/java/com/example/vostts/VosTtsController.java:140-155 | after a stop, a pause and a resume set `running` with no writer (and no loop when the stop ended the session's own loop), and the next start press stops instead of starting |
| VosController.StopAfterQueuedStartKeepsLoop | src/main/java/com/example/vostts/VosTtsController.java:85-223 | after a press during a pause, the next press cancels only the queued task: the live loop survives without a writer, and once `running` is set again its finals reach the display but not the transcript |
| Transcriber.IndexLine | src/main/java/com/example/TranscriberApp.java:328 | the index line of a non-negative index is all digits, reads back as the index, and is exactly as long as its shortest spelling, so it has no leading zeros |
| Transcriber.BlockReadsBack | src/main/java/com/example/TranscriberApp.java:328-334 | a block of non-negative index and times reads back as its index, start, end and text, under a parser that refuses leading zeros in the index and non-canonical timing lines; this holds for any text and any separator that cannot continue a timing line (such as `\n` or `\r\n`) |
| Transcriber.StartRecognition | src/main/java/com/example/TranscriberApp.java:232-258 | refused when the model is not ready or a session runs; otherwise running, session start `now`, counter 1, previous end 0; in both cases the file text, the label and the text area are unchanged |
| Transcriber.StopRecognition | src/main/java/com/example/TranscriberApp.java:289-296 | `running` becomes false and nothing else changes, in particular the file |
| Transcriber.Press | src/main/java/com/example/TranscriberApp.java:92-98 | ignored unless the model is ready and a device exists; starts when not running (exactly `StartRecognition`); stops when running, exactly as `StopRecognition` does, which clears only `running` and keeps the written blocks and the file |
| Transcriber.AppendText | src/main/java/com/example/TranscriberApp.java:325-341 | exactly one block is appended, numbered with the counter, from the previous end to `now - sessionStart`; the counter advances by one, the previous end becomes this end, and the label and text area show the text |
| Transcriber.AppendTextWrites | src/main/java/com/example/TranscriberApp.java:328-335 | the file text grows by exactly the rendered block |
| Transcriber.Feed | src/main/java/com/example/TranscriberApp.java:308-323 | only a non-empty final writes a block; a partial changes nothing but the label, which shows its text when non-empty; empty texts have no effect |
| Transcriber.LoopWrites | src/main/java/com/example/TranscriberApp.java:260-272 | a running loop appends exactly the blocks `Build` gives for its non-empty finals, continuing counter and previous end |
| Transcriber.LoopKeeps | src/main/java/com/example/TranscriberApp.java:260-287 | a running loop keeps its session start, separator and earlier file contents, and is still running exactly when no stop press or end of stream came |
| Transcriber.BuildShape | src/main/java/com/example/TranscriberApp.java:327-336 | one block per final, numbered consecutively, with its text and end time; the first starts at the previous end and each later one where the one before ended |
| Transcriber.BuildOrdered | src/main/java/com/example/TranscriberApp.java:327-336 | with a clock that never goes back, no block ends before it starts |
| Transcriber.FinalsAscending | src/main/java/com/example/TranscriberApp.java:327 | the clock readings of a session's finals never go back |
| Transcriber.SessionWrites | src/main/java/com/example/TranscriberApp.java:232-287 | a whole session appends exactly the blocks `Build` gives for its finals, numbered from 1 and starting at 0; the file text grows by their rendering; the session stops exactly on a stop press or an end of stream |
| Transcriber.SessionSegments | src/main/java/com/example/TranscriberApp.java:242-244 | the N non-empty finals of a session give blocks numbered exactly 1..N, with their texts and end times since the start, the first starting at 0 and each later one at the previous end, none ending before it starts |

## Left out

- Audio capture is device I/O: the line, the mixer selection and `loadInputDevices`. A read is a `Chunk` carrying its length; TranscriberApp sees only the number of devices.
- The Vosk model and recognizer and the JSON parsing are foreign libraries. They are replaced by the `Final` / `Partial` event of each chunk.
- Model download, unzip, `locateModelPath` and `isModelValid` are network and file-system work. Only the resulting `modelReady` flag is modelled.
- `calculateVolumeLevel` and the volume bar use floating point.
- Threads are modelled as a sequential interleaving of loop iterations and presses. Left out: the executor, `Thread.interrupt`, `cancel(true)`, `Platform.runLater` and `SwingUtilities.invokeLater`.
- VosController.StartTranscription: the executor's queue is not modelled. A task queued behind a still-live loop is recorded only as the task reference; the model never runs it, while the single-thread executor would run it after the live loop ends if it was not cancelled.
- Transcriber.StartRecognition: `running` becomes true at once. In the code it is set by the new thread, so two quick presses can start two threads.
- A button press is effective at once. A stop that cancels the live loop ends it at its next check (VosTtsController); the TranscriberApp loop ends at its `running` test.
- The session id, the session directory and the file names are file-system details. The transcript is the text written since the session's writer opened. The `.srt` file is its earlier contents plus the blocks appended.
- Exceptions from writing are not modelled: write failures, and a flush error ending the TranscriberApp loop.
- Labels, button captions, fade transitions, the timer's one-second schedule and the theme are presentation only.
- Decimal.FormatInt: digits are the ASCII digits `0`-`9`. `String.format` (TranscriberApp.java:348, VosTtsController.java:322) uses the default locale, which may print other digits; `Integer.toString` (TranscriberApp.java:328) always prints ASCII digits.
- Transcriber.FileText: the file is modelled as the characters written. `FileWriter` (TranscriberApp.java:239, VosTtsController.java:239) encodes them in the platform default charset, which writes a character it cannot encode as `?`. The same holds for VosController's `file`.
- Java `long` and `int` overflow of time values and the SRT counter are not modelled; integers are unbounded.
- Word wrap is not modelled: `getWrapChars` is not defined in VosTtsController.
- The other controllers are UI or file-system code: browser, viewer, settings, session metadata, theme, dragging, logging setup and the application class.

=== FILE: basics.dfy ===
/** Small shared definitions used by every other module. */
module Basics {

  /** The conventional Some/None datatype, used for parse results. */
  datatype Option<T> = None | Some(value: T)

  function Max(a: int, b: int): int
  {
    if a >= b then a else b
  }

  /** The length of the longest prefix of `s` whose characters all satisfy `p`. */
  function Span(s: string, p: char -> bool): (n: nat)
    ensures n <= |s|
    ensures forall k :: 0 <= k < n ==> p(s[k])
    ensures n < |s| ==> !p(s[n])
    decreases |s|
  {
    if s == [] || !p(s[0]) then 0 else 1 + Span(s[1..], p)
  }

  /** The span of `x + y` stops exactly at the end of `x` when `y` starts with a character outside it. */
  lemma SpanOfAppend(x: string, y: string, p: char -> bool)
    requires forall k :: 0 <= k < |x| ==> p(x[k])
    requires y != [] && !p(y[0])
    ensures Span(x + y, p) == |x|
  {
    assert forall k :: 0 <= k < |x| ==> (x + y)[k] == x[k];
    assert (x + y)[|x|] == y[0];
  }

  lemma AppendAssoc<T>(x: seq<T>, y: seq<T>, z: seq<T>)
    ensures x + (y + z) == (x + y) + z
  {
  }

  /** The texts `f(x)` of the elements, one after the other. */
  function Concat<T>(xs: seq<T>, f: T -> string): string
    decreases |xs|
  {
    if xs == [] then [] else Concat(xs[..|xs| - 1], f) + f(xs[|xs| - 1])
  }

  /** Concatenation distributes over appending elements. */
  lemma {:induction false} ConcatAppend<T>(xs: seq<T>, ys: seq<T>, f: T -> string)
    ensures Concat(xs + ys, f) == Concat(xs, f) + Concat(ys, f)
    decreases |ys|
  {
    if ys == [] {
      assert xs + ys == xs;
    } else {
      var ys' := ys[..|ys| - 1];
      ConcatAppend(xs, ys', f);
      assert (xs + ys)[..|xs + ys| - 1] == xs + ys';
    }
  }

  /** A single element contributes its own text. */
  lemma ConcatOne<T>(x: T, f: T -> string)
    ensures Concat([x], f) == f(x)
  {
    assert [x][..0] == [];
  }

  /** Text written line by line: every line followed by the separator `sep`. */
  function Lines(lines: seq<string>, sep: string): string
  {
    Concat(lines, l => l + sep)
  }

  /** The first line comes first, followed by its separator. */
  lemma LinesCons(x: string, xs: seq<string>, sep: string)
    ensures Lines([x] + xs, sep) == x + sep + Lines(xs, sep)
  {
    ConcatAppend([x], xs, l => l + sep);
    ConcatOne(x, l => l + sep);
  }
}

=== FILE: decimal.dfy ===
/**
 Decimal rendering of integers as Java's `String.format("%0<w>d", n)` does it,
 together with a parser for unsigned digit strings used to state that the
 rendering loses nothing.
 */
module Decimal {
  import opened Basics

  predicate IsDigit(c: char)
  {
    '0' <= c <= '9'
  }

  predicate IsDigits(s: string)
  {
    forall i :: 0 <= i < |s| ==> IsDigit(s[i])
  }

  function DigitValue(c: char): int
    requires IsDigit(c)
  {
    c as int - '0' as int
  }

  function DigitChar(d: int): (c: char)
    requires 0 <= d < 10
    ensures IsDigit(c) && DigitValue(c) == d
  {
    ('0' as int + d) as char
  }

  function Pow10(k: nat): nat
  {
    if k == 0 then 1 else 10 * Pow10(k - 1)
  }

  /** The shortest decimal spelling of `n` (Java's `Long.toString` for non-negative values). */
  function Digits(n: nat): (s: string)
    ensures |s| >= 1 && IsDigits(s)
    ensures n >= 10 ==> s[0] != '0'
  {
    if n < 10 then [DigitChar(n)] else Digits(n / 10) + [DigitChar(n % 10)]
  }

  /** The value of a digit string, most significant digit first; the empty string reads as 0. */
  function ParseNat(s: string): nat
    requires IsDigits(s)
  {
    if s == [] then 0 else 10 * ParseNat(s[..|s| - 1]) + DigitValue(s[|s| - 1])
  }

  /** Reading back the spelling of `n` gives `n`. */
  lemma {:induction false} ParseDigits(n: nat)
    ensures ParseNat(Digits(n)) == n
    decreases n
  {
    if n >= 10 {
      var s := Digits(n);
      assert s[..|s| - 1] == Digits(n / 10);
      ParseDigits(n / 10);
    }
  }

  /** A number below `10^k` needs at most `k` digits. */
  lemma {:induction false} DigitsLength(n: nat, k: nat)
    requires k >= 1 && n < Pow10(k)
    ensures |Digits(n)| <= k
    decreases k
  {
    if n >= 10 {
      assert k >= 2;
      assert n / 10 < Pow10(k - 1);
      DigitsLength(n / 10, k - 1);
    }
  }

  function Zeros(k: nat): (z: string)
    ensures |z| == k && forall i :: 0 <= i < k ==> z[i] == '0'
  {
    if k == 0 then [] else Zeros(k - 1) + ['0']
  }

  /** Left-pads `s` with '0' up to width `w`; a longer `s` is left as it is. */
  function ZeroPad(s: string, w: int): (r: string)
    ensures |r| == Max(|s|, w)
    ensures r[|r| - |s|..] == s
    ensures forall i :: 0 <= i < |r| - |s| ==> r[i] == '0'
  {
    if |s| >= w then s else Zeros(w - |s|) + s
  }

  /** A run of zeros is a digit string of value 0. */
  lemma {:induction false} ParseZeros(k: nat)
    ensures IsDigits(Zeros(k)) && ParseNat(Zeros(k)) == 0
    decreases k
  {
    if k > 0 {
      var z := Zeros(k);
      assert z[..k - 1] == Zeros(k - 1);
      ParseZeros(k - 1);
    }
  }

  /** Leading zeros do not change the value of a digit string. */
  lemma {:induction false} ParseLeadingZeros(k: nat, s: string)
    requires IsDigits(s)
    ensures IsDigits(Zeros(k) + s) && ParseNat(Zeros(k) + s) == ParseNat(s)
    decreases |s|
  {
    var z := Zeros(k);
    ParseZeros(k);
    var t := z + s;
    assert forall i :: 0 <= i < |t| ==> t[i] == if i < k then z[i] else s[i - k];
    if s == [] {
      assert t == z;
    } else {
      assert t[..|t| - 1] == z + s[..|s| - 1];
      assert t[|t| - 1] == s[|s| - 1];
      ParseLeadingZeros(k, s[..|s| - 1]);
    }
  }

  /**
   Java's `String.format("%0<w>d", n)`: the decimal digits of `|n|` padded with
   zeros so that the whole field, sign included, is at least `w` characters.
   */
  function FormatInt(n: int, w: int): (r: string)
    ensures n >= 0 ==> IsDigits(r) && ParseNat(r) == n && |r| == Max(|Digits(n)|, w)
    ensures n < 0 ==> |r| >= 2 && r[0] == '-' && IsDigits(r[1..]) && ParseNat(r[1..]) == -n
    ensures |r| >= w
  {
    if n >= 0 then
      var d := Digits(n);
      ParseDigits(n);
      ParseLeadingZeros(Max(|d|, w) - |d|, d);
      assert ZeroPad(d, w) == Zeros(Max(|d|, w) - |d|) + d;
      ZeroPad(d, w)
    else
      var d := Digits(-n);
      ParseDigits(-n);
      ParseLeadingZeros(Max(|d|, w - 1) - |d|, d);
      assert ZeroPad(d, w - 1) == Zeros(Max(|d|, w - 1) - |d|) + d;
      var r := "-" + ZeroPad(d, w - 1);
      assert r[1..] == ZeroPad(d, w - 1);
      r
  }

  /** A digit string of length `k` denotes a number below `10^k`. */
  lemma {:induction false} ParseNatBound(s: string)
    requires IsDigits(s)
    ensures ParseNat(s) < Pow10(|s|)
    decreases |s|
  {
    if s != [] {
      ParseNatBound(s[..|s| - 1]);
    }
  }

  /** Two digit strings of the same length and the same value are the same string. */
  lemma {:induction false} ParseNatInjective(a: string, b: string)
    requires IsDigits(a) && IsDigits(b) && |a| == |b| && ParseNat(a) == ParseNat(b)
    ensures a == b
    decreases |a|
  {
    if a != [] {
      var n := |a|;
      var x, y := ParseNat(a[..n - 1]), ParseNat(b[..n - 1]);
      var da, db := DigitValue(a[n - 1]), DigitValue(b[n - 1]);
      assert 10 * x + da == 10 * y + db;
      EuclidDigit(10 * x + da, x, da, y, db);
      ParseNatInjective(a[..n - 1], b[..n - 1]);
      assert a == a[..n - 1] + [a[n - 1]];
      assert b == b[..n - 1] + [b[n - 1]];
    }
  }

  /** The last decimal digit and the rest of a number are determined by it. */
  lemma EuclidDigit(v: int, x: int, dx: int, y: int, dy: int)
    requires 0 <= dx < 10 && 0 <= dy < 10
    requires v == 10 * x + dx && v == 10 * y + dy
    ensures x == y && dx == dy
  {
  }

  /** A digit string of width `w` is exactly what `%0<w>d` prints for its value. */
  lemma FormatOfFixedWidth(s: string, w: nat)
    requires IsDigits(s) && |s| == w >= 1
    ensures FormatInt(ParseNat(s), w) == s
  {
    ParseNatBound(s);
    FormatWidth(ParseNat(s), w);
    ParseNatInjective(FormatInt(ParseNat(s), w), s);
  }

  /** A non-negative value below `10^w` fills a `%0<w>d` field exactly. */
  lemma FormatWidth(n: int, w: nat)
    requires w >= 1 && 0 <= n < Pow10(w)
    ensures |FormatInt(n, w)| == w
  {
    DigitsLength(n, w);
  }
}

=== FILE: java_int.dfy ===
/**
 Java's integer division and remainder on `long`. Java truncates the quotient
 toward zero and gives the remainder the sign of the dividend, whereas Dafny's
 `/` and `%` are Euclidean. The time formatting code of the application divides
 possibly negative millisecond counts, so the model spells the Java operators out.
 */
module JavaInt {

  /** Java `a / d` for a positive divisor. */
  function Quot(a: int, d: int): int
    requires d > 0
  {
    if a >= 0 then a / d else -((-a) / d)
  }

  /** Java `a % d` for a positive divisor. */
  function Rem(a: int, d: int): int
    requires d > 0
  {
    if a >= 0 then a % d else -((-a) % d)
  }

  /** The defining identity of Java division, with the range and sign of the remainder. */
  lemma QuotRem(a: int, d: int)
    requires d > 0
    ensures d * Quot(a, d) + Rem(a, d) == a
    ensures -d < Rem(a, d) < d
    ensures a >= 0 ==> 0 <= Rem(a, d) && 0 <= Quot(a, d)
    ensures a <= 0 ==> Rem(a, d) <= 0 && Quot(a, d) <= 0
  {
  }

  /** A positive multiple of a positive number is at least that number. */
  lemma MulAtLeast(d: int, t: int)
    requires d > 0 && t >= 1
    ensures d * t >= d
    decreases t
  {
    if t > 1 {
      MulAtLeast(d, t - 1);
      assert d * t == d * (t - 1) + d;
    }
  }

  /** Euclidean division has exactly one quotient/remainder pair. */
  lemma EuclidUnique(a: int, d: int, q: int, r: int)
    requires d > 0 && 0 <= r < d && a == d * q + r
    ensures a / d == q && a % d == r
  {
    var q', r' := a / d, a % d;
    assert a == d * q' + r';
    assert d * (q - q') == r' - r;
    if q > q' {
      MulAtLeast(d, q - q');
    } else if q < q' {
      MulAtLeast(d, q' - q);
    }
  }

  /** The Euclidean form, for a non-negative dividend. */
  lemma ModOfMod(b: int, d: int, k: int)
    requires b >= 0 && d > 0 && k > 0
    ensures (b % (d * k)) % d == b % d
  {
    var dk := d * k;
    var q, r := b / dk, b % dk;
    assert b == dk * q + r;
    assert b == d * (k * q + r / d) + r % d by {
      assert r == d * (r / d) + r % d;
      assert dk * q == d * (k * q);
    }
    EuclidUnique(b, d, k * q + r / d, r % d);
  }

  /**
   Taking the remainder by a multiple of `d` first does not change the remainder
   by `d`: `(a % (d*k)) % d == a % d` in Java arithmetic.
   */
  lemma RemOfRem(a: int, d: int, k: int)
    requires d > 0 && k > 0
    ensures Rem(Rem(a, d * k), d) == Rem(a, d)
  {
    var b := if a >= 0 then a else -a;
    ModOfMod(b, d, k);
    assert d * k > 0;
    if a < 0 {
      assert Rem(a, d * k) == -(b % (d * k));
    }
  }
}

=== FILE: recognition.dfy ===
/**
 The recognizer, seen from the capture loop. Feeding a chunk either closes an
 utterance (`acceptWaveForm` true, then `getResult`) or yields a provisional
 hypothesis (`getPartialResult`). The JSON payload is reduced to the string
 that `optString("text")` or `optString("partial")` returns, which is empty
 when the field is missing.
 */
module Recognition {

  datatype Event = Final(text: string) | Partial(text: string)

  /** The only events that commit a transcript line: a final result with non-empty text. */
  predicate Commits(e: Event)
  {
    e.Final? && e.text != []
  }
}

=== FILE: session_clock.dfy ===
/**
 The pausable session clock of VosTtsController: the four fields `paused`,
 `startTime`, `pauseAccum` and `pauseStarted`, the elapsed-active-time formula
 that the one-second timer evaluates, and the `HH:MM:SS` text it displays.
 Wall-clock time is an explicit parameter `now` (milliseconds).
 */
module SessionClock {
  import opened Basics
  import opened JavaInt
  import opened Decimal

  datatype Clock = Clock(paused: bool, startTime: int, pauseAccum: int, pauseStarted: int)

  /** The fields of a newly constructed controller: Java zero-initialises them. */
  const Initial: Clock := Clock(false, 0, 0, 0)

  /** Active milliseconds at wall-clock time `now`: time since the start minus all paused time. */
  function Elapsed(c: Clock, now: int): int
  {
    now - c.startTime - c.pauseAccum - (if c.paused then now - c.pauseStarted else 0)
  }

  /**
   The recorded instants are consistent with a wall clock that now reads `now`:
   accumulated pause time is never negative, and the start plus the paused time
   lies no later than the current pause (when paused) or the present.
   */
  predicate Consistent(c: Clock, now: int)
  {
    && c.pauseAccum >= 0
    && if c.paused then c.startTime + c.pauseAccum <= c.pauseStarted <= now
       else c.startTime + c.pauseAccum <= now
  }

  /** Starting a session: not paused, no accumulated pause, the start instant is `now`. */
  function Restart(c: Clock, now: int): (r: Clock)
    ensures !r.paused && Consistent(r, now)
    ensures forall t :: Elapsed(r, t) == t - now
  {
    c.(paused := false, pauseAccum := 0, startTime := now)
  }

  /**
   The clock half of the pause/resume button. Pausing freezes elapsed time at
   its value at `now`; resuming continues from the frozen value with no jump.
   */
  function Toggle(c: Clock, now: int): (r: Clock)
    ensures r.paused == !c.paused
    ensures !c.paused ==> forall t :: Elapsed(r, t) == Elapsed(c, now)
    ensures c.paused ==> forall t :: Elapsed(r, t) == Elapsed(c, now) + (t - now)
    ensures Consistent(c, now) ==> Consistent(r, now)
  {
    if c.paused then
      c.(pauseAccum := c.pauseAccum + (now - c.pauseStarted), paused := false)
    else
      c.(paused := true, pauseStarted := now)
  }

  /** A consistent clock stays consistent as wall-clock time advances. */
  lemma ConsistentLater(c: Clock, t1: int, t2: int)
    requires Consistent(c, t1) && t1 <= t2
    ensures Consistent(c, t2)
  {
  }

  /** Active time is never negative on a consistent clock. */
  lemma ElapsedNonNegative(c: Clock, now: int)
    requires Consistent(c, now)
    ensures Elapsed(c, now) >= 0
  {
  }

  /** While paused, elapsed time is constant as `now` advances. */
  lemma ElapsedFrozenWhilePaused(c: Clock, t1: int, t2: int)
    requires c.paused
    ensures Elapsed(c, t1) == Elapsed(c, t2)
  {
  }

  /** While not paused, elapsed time advances exactly with the wall clock. */
  lemma ElapsedAdvancesWhileRunning(c: Clock, t1: int, t2: int)
    requires !c.paused
    ensures Elapsed(c, t2) - Elapsed(c, t1) == t2 - t1
  {
  }

  /** A pause at `t1` followed by a resume at any later `t2` leaves no drift. */
  lemma PauseResumeNoDrift(c: Clock, t1: int, t2: int)
    requires !c.paused && t1 <= t2
    ensures Elapsed(Toggle(Toggle(c, t1), t2), t2) == Elapsed(c, t1)
  {
  }

  /**
   The hours, minutes and seconds the timer shows for `secs` whole seconds,
   computed with Java's truncating `/` and `%`.
   */
  function TimerFields(secs: int): (f: (int, int, int))
    ensures f.0 * 3600 + f.1 * 60 + f.2 == secs
    ensures -60 < f.1 < 60 && -60 < f.2 < 60
    ensures secs >= 0 ==> f.0 >= 0 && 0 <= f.1 && 0 <= f.2
    ensures secs >= 0 ==> f.0 == secs / 3600
  {
    QuotRem(secs, 3600);
    QuotRem(Rem(secs, 3600), 60);
    QuotRem(secs, 60);
    RemOfRem(secs, 60, 60);
    (Quot(secs, 3600), Quot(Rem(secs, 3600), 60), Rem(secs, 60))
  }

  /**
   Splits `H..H:MM:SS` into its three digit fields, counted from the end. Only
   the text the timer can print is accepted: the hours exactly as `%02d` prints
   their value, and minutes and seconds below 60.
   */
  function HmsSplit(t: string): (r: Option<(string, string, string)>)
    ensures r.Some? ==> IsDigits(r.value.0) && IsDigits(r.value.1) && IsDigits(r.value.2)
    ensures r.Some? ==> |r.value.1| == 2 && |r.value.2| == 2
    ensures r.Some? ==> r.value.0 == FormatInt(ParseNat(r.value.0), 2)
                        && ParseNat(r.value.1) < 60 && ParseNat(r.value.2) < 60
  {
    if |t| >= 7 && t[|t| - 6] == ':' && t[|t| - 3] == ':'
       && IsDigits(t[..|t| - 6]) && IsDigits(t[|t| - 5..|t| - 3]) && IsDigits(t[|t| - 2..])
       && t[..|t| - 6] == FormatInt(ParseNat(t[..|t| - 6]), 2)
       && ParseNat(t[|t| - 5..|t| - 3]) < 60 && ParseNat(t[|t| - 2..]) < 60
    then Some((t[..|t| - 6], t[|t| - 5..|t| - 3], t[|t| - 2..]))
    else None
  }

  /** The seconds denoted by hour, minute and second digit fields. */
  function HmsValue(p: (string, string, string)): int
    requires IsDigits(p.0) && IsDigits(p.1) && IsDigits(p.2)
  {
    3600 * ParseNat(p.0) + 60 * ParseNat(p.1) + ParseNat(p.2)
  }

  /** Reads `H..H:MM:SS` back into a number of seconds. */
  function ParseHms(t: string): Option<int>
  {
    match HmsSplit(t)
    case None => None
    case Some(p) => Some(HmsValue(p))
  }

  /** Where the fields and separators of `H..H:MM:SS` sit, counted from its end. */
  lemma HmsSlices(hh: string, mm: string, ss: string)
    requires |mm| == 2 && |ss| == 2
    ensures var t := hh + ":" + mm + ":" + ss;
      var n := |t|;
      && n == |hh| + 6
      && t[..n - 6] == hh && t[n - 5..n - 3] == mm && t[n - 2..] == ss
      && t[n - 6] == ':' && t[n - 3] == ':'
  {
    var tail := ":" + mm + ":" + ss;
    var t := hh + tail;
    assert t == hh + ":" + mm + ":" + ss;
    var n := |t|;
    assert t[..n - 6] == hh;
    assert t[n - 6..] == tail;
    assert tail[1..3] == mm && tail[4..] == ss;
    assert t[n - 5..n - 3] == tail[1..3];
    assert t[n - 2..] == tail[4..];
  }

  /** A text that splits into three fields reads as their value. */
  lemma ParseHmsOfSplit(t: string, hh: string, mm: string, ss: string)
    requires HmsSplit(t) == Some((hh, mm, ss))
    ensures ParseHms(t) == Some(HmsValue((hh, mm, ss)))
  {
  }

  /** `H..H:MM:SS` assembled from digit fields as the timer prints them splits back into them. */
  lemma SplitHms(hh: string, mm: string, ss: string)
    requires IsDigits(hh) && IsDigits(mm) && IsDigits(ss)
    requires hh == FormatInt(ParseNat(hh), 2) && ParseNat(mm) < 60 && ParseNat(ss) < 60
    requires |mm| == 2 && |ss| == 2
    ensures HmsSplit(hh + ":" + mm + ":" + ss) == Some((hh, mm, ss))
  {
    HmsSlices(hh, mm, ss);
  }

  /**
   Digit fields whose values are `h`, `m` and `s`, printed as the timer prints
   them, read back as the seconds they denote. Stated over the field values,
   so that callers match it without unfolding the parse.
   */
  lemma HmsFieldsReadBack(hh: string, mm: string, ss: string, h: int, m: int, s: int, secs: int)
    requires IsDigits(hh) && IsDigits(mm) && IsDigits(ss)
    requires h >= 0 && hh == FormatInt(h, 2) && m < 60 && s < 60
    requires |mm| == 2 && |ss| == 2
    requires ParseNat(hh) == h && ParseNat(mm) == m && ParseNat(ss) == s
    requires 3600 * h + 60 * m + s == secs
    ensures ParseHms(hh + ":" + mm + ":" + ss) == Some(secs)
  {
    SplitHms(hh, mm, ss);
    ParseHmsOfSplit(hh + ":" + mm + ":" + ss, hh, mm, ss);
    assert HmsValue((hh, mm, ss)) == secs;
  }

  /**
   `String.format("%02d:%02d:%02d", h, m, s)` of the timer fields. For a
   non-negative count it reads back exactly, with the hours zero-padded to at
   least two digits.
   */
  function HmsText(secs: int): (r: string)
    ensures secs >= 0 ==> ParseHms(r) == Some(secs)
    ensures secs >= 0 ==> |r| == 6 + Max(|Digits(secs / 3600)|, 2)
  {
    var f := TimerFields(secs);
    var hh, mm, ss := FormatInt(f.0, 2), FormatInt(f.1, 2), FormatInt(f.2, 2);
    if secs >= 0 then
      FormatWidth(f.1, 2);
      FormatWidth(f.2, 2);
      HmsFieldsReadBack(hh, mm, ss, f.0, f.1, f.2, secs);
      hh + ":" + mm + ":" + ss
    else
      hh + ":" + mm + ":" + ss
  }

  /** A text with the fields and separators of `H..H:MM:SS` in their places is that text. */
  lemma JoinHms(t: string, hh: string, mm: string, ss: string)
    requires |mm| == 2 && |ss| == 2
    requires |t| == |hh| + 6 && t[..|hh|] == hh && t[|hh| + 1..|hh| + 3] == mm && t[|hh| + 4..] == ss
    requires t[|hh|] == ':' && t[|hh| + 3] == ':'
    ensures t == hh + ":" + mm + ":" + ss
  {
    var u := hh + ":" + mm + ":" + ss;
    HmsSlices(hh, mm, ss);
    var k := |hh|;
    forall i | 0 <= i < |t|
      ensures t[i] == u[i]
    {
      if i < k {
        assert t[i] == t[..k][i] && u[i] == u[..k][i];
      } else if k + 1 <= i < k + 3 {
        assert t[i] == t[k + 1..k + 3][i - k - 1] && u[i] == u[k + 1..k + 3][i - k - 1];
      } else if k + 4 <= i {
        assert t[i] == t[k + 4..][i - k - 4] && u[i] == u[k + 4..][i - k - 4];
      }
    }
  }

  /** A text that splits into three fields is those fields joined by `:`. */
  lemma HmsSplitJoin(t: string)
    requires HmsSplit(t).Some?
    ensures var p := HmsSplit(t).value; t == p.0 + ":" + p.1 + ":" + p.2
  {
    var p := HmsSplit(t).value;
    JoinHms(t, p.0, p.1, p.2);
  }

  /**
   Hours, minutes below 60 and seconds below 60 are the only split
   `TimerFields` can give of the seconds they denote.
   */
  lemma TimerFieldsOf(h: int, m: int, s: int, secs: int)
    requires h >= 0 && 0 <= m < 60 && 0 <= s < 60
    requires secs == 3600 * h + 60 * m + s
    ensures TimerFields(secs) == (h, m, s)
  {
    var f := TimerFields(secs);
    EuclidUnique(secs, 3600, h, 60 * m + s);
    EuclidUnique(60 * m + s, 60, m, s);
    EuclidUnique(60 * m + s, 60, f.1, f.2);
  }

  /** The timer text prints the three fields of `TimerFields`. */
  lemma HmsTextFields(secs: int)
    ensures var f := TimerFields(secs);
      HmsText(secs) == FormatInt(f.0, 2) + ":" + FormatInt(f.1, 2) + ":" + FormatInt(f.2, 2)
  {
  }

  /** Fields `HmsSplit` can return are the fields the timer prints for their value. */
  lemma HmsOfFields(hh: string, mm: string, ss: string, secs: int)
    requires IsDigits(hh) && IsDigits(mm) && IsDigits(ss) && |mm| == 2 && |ss| == 2
    requires hh == FormatInt(ParseNat(hh), 2) && ParseNat(mm) < 60 && ParseNat(ss) < 60
    requires HmsValue((hh, mm, ss)) == secs
    ensures secs >= 0 && hh + ":" + mm + ":" + ss == HmsText(secs)
  {
    var h, m, s := ParseNat(hh), ParseNat(mm), ParseNat(ss);
    assert secs == 3600 * h + 60 * m + s;
    TimerFieldsOf(h, m, s, secs);
    FormatOfFixedWidth(mm, 2);
    FormatOfFixedWidth(ss, 2);
    HmsTextFields(secs);
  }

  /**
   The timer text is the only text that reads back as its value: whatever
   `ParseHms` accepts is exactly what the timer prints for the result.
   */
  lemma ParseHmsCanonical(t: string, secs: int)
    requires ParseHms(t) == Some(secs)
    ensures secs >= 0 && t == HmsText(secs)
  {
    var p := HmsSplit(t).value;
    HmsSplitJoin(t);
    HmsOfFields(p.0, p.1, p.2, secs);
  }

  /**
   The text of the timer label at `now`: whole seconds of active time (Java's
   `elapsed / 1000`) as `HH:MM:SS`. On a consistent clock it reads back as
   exactly those whole seconds.
   */
  function TimerText(c: Clock, now: int): (r: string)
    ensures Consistent(c, now) ==> ParseHms(r) == Some(Elapsed(c, now) / 1000)
  {
    QuotRem(Elapsed(c, now), 1000);
    HmsText(Quot(Elapsed(c, now), 1000))
  }
}

=== FILE: srt_time.dfy ===
/**
 SubRip time stamps as TranscriberApp writes them: `formatSrtTime` splits a
 millisecond count into hours, minutes, seconds and milliseconds with Java's
 truncating arithmetic and prints `HH:MM:SS,mmm` (hours may take more than two
 digits). A timing line joins two stamps with ` --> `.
 */
module SrtTime {
  import opened Basics
  import opened JavaInt
  import opened Decimal

  /** `(h, m, s, milli)` of `formatSrtTime`. */
  function SrtFields(ms: int): (f: (int, int, int, int))
    ensures f.0 * 3_600_000 + f.1 * 60_000 + f.2 * 1000 + f.3 == ms
    ensures -60 < f.1 < 60 && -60 < f.2 < 60 && -1000 < f.3 < 1000
    ensures ms >= 0 ==> f.0 >= 0 && f.1 >= 0 && f.2 >= 0 && f.3 >= 0
    ensures ms >= 0 ==> f.0 == ms / 3_600_000
  {
    QuotRem(ms, 3_600_000);
    QuotRem(Rem(ms, 3_600_000), 60_000);
    QuotRem(Rem(ms, 60_000), 1000);
    QuotRem(ms, 60_000);
    QuotRem(ms, 1000);
    RemOfRem(ms, 60_000, 60);
    RemOfRem(ms, 1000, 60);
    (Quot(ms, 3_600_000), Quot(Rem(ms, 3_600_000), 60_000),
     Quot(Rem(ms, 60_000), 1000), Rem(ms, 1000))
  }

  /**
   Splits `H..H:MM:SS,mmm` into its four digit fields, counted from the end.
   Only the text `formatSrtTime` can print is accepted: the hours exactly as
   `%02d` prints their value, and minutes and seconds below 60.
   */
  function SrtSplit(t: string): (r: Option<(string, string, string, string)>)
    ensures r.Some? ==> IsDigits(r.value.0) && IsDigits(r.value.1) && IsDigits(r.value.2) && IsDigits(r.value.3)
    ensures r.Some? ==> |r.value.1| == 2 && |r.value.2| == 2 && |r.value.3| == 3
    ensures r.Some? ==> r.value.0 == FormatInt(ParseNat(r.value.0), 2)
                        && ParseNat(r.value.1) < 60 && ParseNat(r.value.2) < 60
  {
    var n := |t|;
    if n >= 11 && t[n - 10] == ':' && t[n - 7] == ':' && t[n - 4] == ','
       && IsDigits(t[..n - 10]) && IsDigits(t[n - 9..n - 7])
       && IsDigits(t[n - 6..n - 4]) && IsDigits(t[n - 3..])
       && t[..n - 10] == FormatInt(ParseNat(t[..n - 10]), 2)
       && ParseNat(t[n - 9..n - 7]) < 60 && ParseNat(t[n - 6..n - 4]) < 60
    then Some((t[..n - 10], t[n - 9..n - 7], t[n - 6..n - 4], t[n - 3..]))
    else None
  }

  /** The milliseconds denoted by hour, minute, second and millisecond digit fields. */
  function SrtValue(p: (string, string, string, string)): int
    requires IsDigits(p.0) && IsDigits(p.1) && IsDigits(p.2) && IsDigits(p.3)
  {
    3_600_000 * ParseNat(p.0) + 60_000 * ParseNat(p.1) + 1000 * ParseNat(p.2) + ParseNat(p.3)
  }

  /** Reads `H..H:MM:SS,mmm` back into milliseconds. */
  function ParseSrtTime(t: string): Option<int>
  {
    match SrtSplit(t)
    case None => None
    case Some(p) => Some(SrtValue(p))
  }

  /** The characters a stamp is made of: digits, `:` and `,`. */
  predicate StampChar(c: char)
  {
    IsDigit(c) || c == ':' || c == ','
  }

  /** The characters a timing line is made of: those of stamps and of the arrow. */
  predicate TimingChar(c: char)
  {
    StampChar(c) || c == ' ' || c == '-' || c == '>'
  }

  predicate StampChars(s: string)
  {
    forall i :: 0 <= i < |s| ==> StampChar(s[i])
  }

  predicate TimingChars(s: string)
  {
    forall i :: 0 <= i < |s| ==> TimingChar(s[i])
  }

  /** The layout `H..H:MM:SS,mmm` of a stamp, from its four printed fields. */
  function Stamp(hh: string, mm: string, ss: string, mmm: string): string
  {
    hh + ":" + mm + ":" + ss + "," + mmm
  }

  /** A stamp of digit fields holds only digits, `:` and `,`. */
  lemma StampCharsOnly(hh: string, mm: string, ss: string, mmm: string)
    requires IsDigits(hh) && IsDigits(mm) && IsDigits(ss) && IsDigits(mmm)
    ensures StampChars(Stamp(hh, mm, ss, mmm))
  {
    var t := Stamp(hh, mm, ss, mmm);
    forall i | 0 <= i < |t|
      ensures StampChar(t[i])
    {
      if i < |hh| {
        assert t[i] == hh[i];
      } else if i == |hh| {
        assert t[i] == ':';
      } else if i < |hh| + 1 + |mm| {
        assert t[i] == mm[i - |hh| - 1];
      } else if i == |hh| + 1 + |mm| {
        assert t[i] == ':';
      } else if i < |hh| + 2 + |mm| + |ss| {
        assert t[i] == ss[i - |hh| - 2 - |mm|];
      } else if i == |hh| + 2 + |mm| + |ss| {
        assert t[i] == ',';
      } else {
        assert t[i] == mmm[i - |hh| - 3 - |mm| - |ss|];
      }
    }
  }

  /** Where the fields and separators sit in the ten characters after the hours. */
  lemma StampTail(mm: string, ss: string, mmm: string)
    requires |mm| == 2 && |ss| == 2 && |mmm| == 3
    ensures var tail := ":" + mm + ":" + ss + "," + mmm;
      && |tail| == 10 && tail[1..3] == mm && tail[4..6] == ss && tail[7..] == mmm
      && tail[0] == ':' && tail[3] == ':' && tail[6] == ','
  {
  }

  /** Where the fields and separators of a stamp sit, counted from its end. */
  lemma StampSlices(hh: string, mm: string, ss: string, mmm: string)
    requires |mm| == 2 && |ss| == 2 && |mmm| == 3
    ensures var t := Stamp(hh, mm, ss, mmm);
      var n := |t|;
      && n == |hh| + 10
      && t[..n - 10] == hh && t[n - 9..n - 7] == mm && t[n - 6..n - 4] == ss && t[n - 3..] == mmm
      && t[n - 10] == ':' && t[n - 7] == ':' && t[n - 4] == ','
  {
    var tail := ":" + mm + ":" + ss + "," + mmm;
    StampTail(mm, ss, mmm);
    var t := hh + tail;
    assert t == Stamp(hh, mm, ss, mmm);
    var n := |t|;
    assert t[..n - 10] == hh;
    assert t[n - 10..] == tail;
    assert t[n - 9..n - 7] == tail[1..3];
    assert t[n - 6..n - 4] == tail[4..6];
    assert t[n - 3..] == tail[7..];
  }

  /** A text that splits into four fields reads as their value. */
  lemma ParseSrtOfSplit(t: string, hh: string, mm: string, ss: string, mmm: string)
    requires SrtSplit(t) == Some((hh, mm, ss, mmm))
    ensures ParseSrtTime(t) == Some(SrtValue((hh, mm, ss, mmm)))
  {
  }

  /** A stamp assembled from digit fields as `formatSrtTime` prints them splits back into them. */
  lemma SplitStamp(hh: string, mm: string, ss: string, mmm: string)
    requires IsDigits(hh) && IsDigits(mm) && IsDigits(ss) && IsDigits(mmm)
    requires hh == FormatInt(ParseNat(hh), 2) && ParseNat(mm) < 60 && ParseNat(ss) < 60
    requires |mm| == 2 && |ss| == 2 && |mmm| == 3
    ensures SrtSplit(Stamp(hh, mm, ss, mmm)) == Some((hh, mm, ss, mmm))
  {
    StampSlices(hh, mm, ss, mmm);
  }

  /**
   Digit fields whose values are `h`, `m`, `s` and `milli`, printed as
   `formatSrtTime` prints them, form a stamp that reads back as the
   milliseconds they denote and holds only digits, `:` and `,`.
   */
  lemma StampFieldsReadBack(hh: string, mm: string, ss: string, mmm: string, h: int, m: int, s: int, milli: int, ms: int)
    requires IsDigits(hh) && IsDigits(mm) && IsDigits(ss) && IsDigits(mmm)
    requires h >= 0 && hh == FormatInt(h, 2) && m < 60 && s < 60
    requires |mm| == 2 && |ss| == 2 && |mmm| == 3
    requires ParseNat(hh) == h && ParseNat(mm) == m && ParseNat(ss) == s && ParseNat(mmm) == milli
    requires 3_600_000 * h + 60_000 * m + 1000 * s + milli == ms
    ensures ParseSrtTime(Stamp(hh, mm, ss, mmm)) == Some(ms)
    ensures StampChars(Stamp(hh, mm, ss, mmm))
  {
    SplitStamp(hh, mm, ss, mmm);
    ParseSrtOfSplit(Stamp(hh, mm, ss, mmm), hh, mm, ss, mmm);
    assert SrtValue((hh, mm, ss, mmm)) == ms;
    StampCharsOnly(hh, mm, ss, mmm);
  }

  /**
   `formatSrtTime(ms)`: `String.format("%02d:%02d:%02d,%03d", h, m, s, milli)`.
   A non-negative stamp reads back exactly, is made of digits, `:` and `,`
   only, and has its hours zero-padded to at least two digits.
   */
  function FormatSrtTime(ms: int): (r: string)
    ensures ms >= 0 ==> ParseSrtTime(r) == Some(ms) && StampChars(r)
    ensures ms >= 0 ==> |r| == 10 + Max(|Digits(ms / 3_600_000)|, 2)
  {
    var f := SrtFields(ms);
    var hh, mm, ss, mmm := FormatInt(f.0, 2), FormatInt(f.1, 2), FormatInt(f.2, 2), FormatInt(f.3, 3);
    if ms >= 0 then
      FormatWidth(f.1, 2);
      FormatWidth(f.2, 2);
      FormatWidth(f.3, 3);
      StampFieldsReadBack(hh, mm, ss, mmm, f.0, f.1, f.2, f.3, ms);
      assert |Stamp(hh, mm, ss, mmm)| == |hh| + 10;
      Stamp(hh, mm, ss, mmm)
    else
      Stamp(hh, mm, ss, mmm)
  }

  /** A text with the fields and separators of a stamp in their places is that stamp. */
  lemma JoinStamp(t: string, hh: string, mm: string, ss: string, mmm: string)
    requires |mm| == 2 && |ss| == 2 && |mmm| == 3
    requires |t| == |hh| + 10 && t[..|hh|] == hh && t[|hh| + 1..|hh| + 3] == mm
    requires t[|hh| + 4..|hh| + 6] == ss && t[|hh| + 7..] == mmm
    requires t[|hh|] == ':' && t[|hh| + 3] == ':' && t[|hh| + 6] == ','
    ensures t == Stamp(hh, mm, ss, mmm)
  {
    var u := Stamp(hh, mm, ss, mmm);
    StampSlices(hh, mm, ss, mmm);
    var k := |hh|;
    forall i | 0 <= i < |t|
      ensures t[i] == u[i]
    {
      if i < k {
        assert t[i] == t[..k][i] && u[i] == u[..k][i];
      } else if k + 1 <= i < k + 3 {
        assert t[i] == t[k + 1..k + 3][i - k - 1] && u[i] == u[k + 1..k + 3][i - k - 1];
      } else if k + 4 <= i < k + 6 {
        assert t[i] == t[k + 4..k + 6][i - k - 4] && u[i] == u[k + 4..k + 6][i - k - 4];
      } else if k + 7 <= i {
        assert t[i] == t[k + 7..][i - k - 7] && u[i] == u[k + 7..][i - k - 7];
      }
    }
  }

  /** A text that splits into four fields is the stamp made of them. */
  lemma SplitJoin(t: string)
    requires SrtSplit(t).Some?
    ensures var p := SrtSplit(t).value; t == Stamp(p.0, p.1, p.2, p.3)
  {
    var p := SrtSplit(t).value;
    JoinStamp(t, p.0, p.1, p.2, p.3);
  }

  /**
   Hours, minutes below 60, seconds below 60 and milliseconds below 1000 are
   the only split `SrtFields` can give of the milliseconds they denote.
   */
  lemma SrtFieldsOf(h: int, m: int, s: int, milli: int, ms: int)
    requires h >= 0 && 0 <= m < 60 && 0 <= s < 60 && 0 <= milli < 1000
    requires ms == 3_600_000 * h + 60_000 * m + 1000 * s + milli
    ensures SrtFields(ms) == (h, m, s, milli)
  {
    var f := SrtFields(ms);
    EuclidUnique(ms, 3_600_000, h, 60_000 * m + 1000 * s + milli);
    var rest := 60_000 * m + 1000 * s + milli;
    assert rest == 60_000 * f.1 + 1000 * f.2 + f.3;
    EuclidUnique(rest, 60_000, m, 1000 * s + milli);
    EuclidUnique(rest, 60_000, f.1, 1000 * f.2 + f.3);
    EuclidUnique(1000 * s + milli, 1000, s, milli);
    EuclidUnique(1000 * s + milli, 1000, f.2, f.3);
  }

  /** `formatSrtTime` prints the four fields of `SrtFields`. */
  lemma FormatSrtTimeFields(ms: int)
    ensures var f := SrtFields(ms);
      FormatSrtTime(ms) == Stamp(FormatInt(f.0, 2), FormatInt(f.1, 2), FormatInt(f.2, 2), FormatInt(f.3, 3))
  {
  }

  /** Fields `SrtSplit` can return are the fields `formatSrtTime` prints for their value. */
  lemma StampOfFields(hh: string, mm: string, ss: string, mmm: string, ms: int)
    requires IsDigits(hh) && IsDigits(mm) && IsDigits(ss) && IsDigits(mmm)
    requires |mm| == 2 && |ss| == 2 && |mmm| == 3
    requires hh == FormatInt(ParseNat(hh), 2) && ParseNat(mm) < 60 && ParseNat(ss) < 60
    requires SrtValue((hh, mm, ss, mmm)) == ms
    ensures ms >= 0 && Stamp(hh, mm, ss, mmm) == FormatSrtTime(ms)
  {
    var h, m, s, milli := ParseNat(hh), ParseNat(mm), ParseNat(ss), ParseNat(mmm);
    ParseNatBound(mmm);
    assert Pow10(3) == 1000 by {
      assert Pow10(0) == 1;
    }
    assert ms == 3_600_000 * h + 60_000 * m + 1000 * s + milli;
    assert milli < 1000;
    SrtFieldsOf(h, m, s, milli, ms);
    assert SrtFields(ms) == (h, m, s, milli);
    FormatOfFixedWidth(mm, 2);
    FormatOfFixedWidth(ss, 2);
    FormatOfFixedWidth(mmm, 3);
    assert mmm == FormatInt(milli, 3);
    FormatSrtTimeFields(ms);
  }

  /**
   `formatSrtTime` is the only text that reads back as its value: whatever
   `ParseSrtTime` accepts is exactly what `formatSrtTime` prints for the
   result.
   */
  lemma ParseSrtTimeCanonical(t: string, ms: int)
    requires ParseSrtTime(t) == Some(ms)
    ensures ms >= 0 && t == FormatSrtTime(ms)
  {
    var p := SrtSplit(t).value;
    SplitJoin(t);
    StampOfFields(p.0, p.1, p.2, p.3, ms);
  }


  /** Position of the first `c` in `s`, or `|s|` when there is none. */
  function IndexOf(s: string, c: char): (i: nat)
    ensures i <= |s|
    ensures forall j :: 0 <= j < i ==> s[j] != c
    ensures i < |s| ==> s[i] == c
  {
    if s == [] then 0 else if s[0] == c then 0 else 1 + IndexOf(s[1..], c)
  }

  const Arrow := " --> "

  /** Cuts a timing line at its first space, which must begin the arrow. */
  function TimingFields(line: string): Option<(string, string)>
  {
    var i := IndexOf(line, ' ');
    if i + |Arrow| <= |line| && line[i..i + |Arrow|] == Arrow then
      Some((line[..i], line[i + |Arrow|..]))
    else None
  }

  /** Reads a timing line `start --> end` back into its two millisecond values. */
  function ParseTiming(line: string): Option<(int, int)>
  {
    match TimingFields(line)
    case None => None
    case Some((x, y)) =>
      match (ParseSrtTime(x), ParseSrtTime(y))
      case (Some(a), Some(b)) => Some((a, b))
      case _ => None
  }

  /** In `a + " --> " + b` with `a` made of digits, `:` and `,` only, the arrow is found right after `a`. */
  lemma ParseTimingParts(a: string, b: string)
    requires StampChars(a)
    ensures var line := a + Arrow + b;
      ParseTiming(line) == match (ParseSrtTime(a), ParseSrtTime(b))
                           case (Some(x), Some(y)) => Some((x, y))
                           case _ => None
  {
    var line := a + Arrow + b;
    assert line[|a|] == ' ';
    assert forall j :: 0 <= j < |a| ==> line[j] == a[j];
    assert IndexOf(line, ' ') == |a|;
    assert line[..|a|] == a;
    assert line[|a|..|a| + |Arrow|] == Arrow;
    assert line[|a| + |Arrow|..] == b;
    assert TimingFields(line) == Some((a, b));
  }

  /** Two stamps joined by the arrow make a line of timing characters only. */
  lemma TimingCharsOnly(a: string, b: string)
    requires StampChars(a) && StampChars(b)
    ensures TimingChars(a + Arrow + b)
  {
    var line := a + Arrow + b;
    forall i | 0 <= i < |line|
      ensures TimingChar(line[i])
    {
      if i < |a| {
        assert line[i] == a[i];
      } else if i < |a| + |Arrow| {
        assert line[i] == Arrow[i - |a|];
      } else {
        assert line[i] == b[i - |a| - |Arrow|];
      }
    }
  }

  /**
   The second line of a subtitle block: `formatSrtTime(start) + " --> " +
   formatSrtTime(end)`. For non-negative times both values read back, and the
   line holds only digits, `:`, `,` and the arrow's characters.
   */
  function TimingLine(startMs: int, endMs: int): (r: string)
    ensures startMs >= 0 && endMs >= 0 ==> ParseTiming(r) == Some((startMs, endMs)) && TimingChars(r)
  {
    var a, b := FormatSrtTime(startMs), FormatSrtTime(endMs);
    if startMs >= 0 && endMs >= 0 then
      ParseTimingParts(a, b);
      TimingCharsOnly(a, b);
      a + Arrow + b
    else
      a + Arrow + b
  }

  /** The timing line is the two stamps joined by the arrow. */
  lemma TimingLineText(startMs: int, endMs: int)
    ensures TimingLine(startMs, endMs) == FormatSrtTime(startMs) + Arrow + FormatSrtTime(endMs)
  {
  }

  /** A line `ParseTiming` accepts is its two stamps joined by the arrow. */
  lemma TimingSplit(line: string)
    requires TimingFields(line).Some?
    ensures var p := TimingFields(line).value; line == p.0 + Arrow + p.1
  {
    var i := IndexOf(line, ' ');
    assert line == line[..i] + line[i..i + |Arrow|] + line[i + |Arrow|..];
  }

  /** Two stamps that read back, joined by the arrow, are the timing line of their values. */
  lemma TimingOfStamps(x: string, y: string, startMs: int, endMs: int)
    requires ParseSrtTime(x) == Some(startMs) && ParseSrtTime(y) == Some(endMs)
    ensures startMs >= 0 && endMs >= 0 && x + Arrow + y == TimingLine(startMs, endMs)
  {
    ParseSrtTimeCanonical(x, startMs);
    ParseSrtTimeCanonical(y, endMs);
    TimingLineText(startMs, endMs);
  }

  /**
   The timing line is the only text that reads back as its two times: whatever
   `ParseTiming` accepts is exactly the line written for the result.
   */
  lemma ParseTimingCanonical(line: string, startMs: int, endMs: int)
    requires ParseTiming(line) == Some((startMs, endMs))
    ensures startMs >= 0 && endMs >= 0 && line == TimingLine(startMs, endMs)
  {
    var p := TimingFields(line).value;
    TimingSplit(line);
    TimingOfStamps(p.0, p.1, startMs, endMs);
  }
}

=== FILE: transcriber.dfy ===
/**
 TranscriberApp: the start/stop button, the capture loop of the recognition
 thread and the SubRip writer. Each session numbers its blocks from 1 and makes
 every block start where the previous one ended; times are milliseconds since
 the session started, read from a wall clock passed in as `now`.
 */
module Transcriber {
  import opened Basics
  import opened Decimal
  import opened Recognition
  import opened SrtTime

  /** One subtitle block: its number, start and end times, and text. */
  datatype Segment = Segment(index: int, startMs: int, endMs: int, text: string)

  datatype App = App(
    modelReady: bool,
    /** Number of capture devices in the device list. */
    deviceCount: nat,
    running: bool,
    sessionStart: int,
    lastSegment: int,
    srtIndex: int,
    /** The large label showing the latest words. */
    lastWords: string,
    /** What `transcript.srt` held before the application first appended to it. */
    existing: string,
    /** Every block appended to `transcript.srt`, oldest first; every session opens it in append mode. */
    written: seq<Segment>,
    /** The text area of committed lines. */
    area: string,
    /** `System.lineSeparator()`. */
    sep: string)

  /** The frame as its constructor leaves it, over an existing `transcript.srt`. */
  function Init(modelReady: bool, deviceCount: nat, existing: string, sep: string): App
  {
    App(modelReady, deviceCount, false, 0, 0, 0, "...", existing, [], [], sep)
  }

  /** The text of `transcript.srt`: its earlier contents followed by every block appended. */
  function FileText(a: App): string
  {
    a.existing + Blocks(a.written, a.sep)
  }

  /** `updateStartButtonState`: the button works only with a ready model and at least one device. */
  predicate StartEnabled(a: App)
  {
    a.modelReady && a.deviceCount > 0
  }

  /** `Integer.toString(index)`. */
  function IndexLine(index: int): (r: string)
    ensures index >= 0 ==> |r| >= 1 && IsDigits(r) && ParseNat(r) == index
    ensures index >= 0 ==> |r| == |Digits(index)|
  {
    FormatInt(index, 0)
  }

  /**
   The text `appendText` writes for one segment: the index, the timing line, the
   text and an empty line, each followed by the line separator.
   */
  function Block(s: Segment, sep: string): string
  {
    IndexLine(s.index) + sep + TimingLine(s.startMs, s.endMs) + sep + s.text + sep + sep
  }

  /** The text between a block's first separator and the two that close it. */
  function ParseBody(body: string, sep: string): Option<string>
  {
    if |body| >= 3 * |sep| && body[..|sep|] == sep && body[|body| - 2 * |sep|..] == sep + sep then
      Some(body[|sep|..|body| - 2 * |sep|])
    else None
  }

  /** A block after its index line: the timing line, as far as its characters go, then the body. */
  function ParseTimed(rest: string, sep: string): Option<(int, int, string)>
  {
    var j := Span(rest, TimingChar);
    var t, x := ParseTiming(rest[..j]), ParseBody(rest[j..], sep);
    if t.Some? && x.Some? then Some((t.value.0, t.value.1, x.value)) else None
  }

  /**
   A block's index line: its value and the text after the separator that ends
   it. Only the shortest spelling of the value, as `Integer.toString` prints
   it, is accepted: no leading zero.
   */
  function ParseIndexLine(b: string, sep: string): Option<(int, string)>
  {
    var i := Span(b, IsDigit);
    if i >= 1 && i + |sep| <= |b| && b[i..i + |sep|] == sep then
      assert forall k :: 0 <= k < i ==> b[..i][k] == b[k];
      if i == 1 || b[0] != '0' then Some((ParseNat(b[..i]), b[i + |sep|..])) else None
    else None
  }

  /**
   Reads one block back: the index digits, a separator, the timing line, a
   separator, the text, and the blank line, that is two separators at the end.
   */
  function ParseBlock(b: string, sep: string): Option<(int, int, int, string)>
  {
    match ParseIndexLine(b, sep)
    case None => None
    case Some((n, rest)) =>
      match ParseTimed(rest, sep)
      case None => None
      case Some((st, en, text)) => Some((n, st, en, text))
  }

  /** `ParseIndexLine` on a text already cut after its digits and their separator. */
  lemma ParseIndexLineAt(b: string, sep: string, il: string, rest: string)
    requires IsDigits(il) && |il| >= 1 && (|il| == 1 || il[0] != '0')
    requires Span(b, IsDigit) == |il| && |il| + |sep| <= |b|
    requires b[..|il|] == il && b[|il|..|il| + |sep|] == sep && b[|il| + |sep|..] == rest
    ensures ParseIndexLine(b, sep) == Some((ParseNat(il), rest))
  {
  }

  /** Where the index digits, the separator and the rest sit in a block. */
  lemma IndexLineSlices(il: string, sep: string, rest: string)
    ensures var b := il + (sep + rest);
      && b[..|il|] == il && b[|il|..|il| + |sep|] == sep && b[|il| + |sep|..] == rest
  {
    var b := il + (sep + rest);
    assert b[|il|..] == sep + rest;
  }

  /** The index digits end where the separator after them begins. */
  lemma SplitIndexLine(il: string, sep: string, rest: string)
    requires IsDigits(il) && |il| >= 1 && (|il| == 1 || il[0] != '0')
    requires sep != [] && !IsDigit(sep[0])
    ensures ParseIndexLine(il + (sep + rest), sep) == Some((ParseNat(il), rest))
  {
    SpanOfAppend(il, sep + rest, IsDigit);
    IndexLineSlices(il, sep, rest);
    ParseIndexLineAt(il + (sep + rest), sep, il, rest);
  }

  /** The timing line ends where the separator after it begins. */
  lemma SplitTimingLine(tl: string, body: string)
    requires TimingChars(tl)
    requires body != [] && !TimingChar(body[0])
    ensures Span(tl + body, TimingChar) == |tl|
    ensures (tl + body)[..|tl|] == tl && (tl + body)[|tl|..] == body
  {
    SpanOfAppend(tl, body, TimingChar);
  }

  /** The text sits between one separator and the two that close the block. */
  lemma SplitBody(sep: string, text: string)
    ensures ParseBody(sep + text + sep + sep, sep) == Some(text)
  {
    var body := sep + text + sep + sep;
    assert body == sep + text + (sep + sep);
  }

  /** A block's seven pieces, grouped from the right. */
  lemma BlockLayout(il: string, sep: string, tl: string, text: string)
    ensures il + sep + tl + sep + text + sep + sep == il + (sep + (tl + (sep + text + sep + sep)))
  {
    var x := il + sep + tl;
    AppendAssoc(x, sep + text + sep, sep);
    AppendAssoc(x, sep + text, sep);
    AppendAssoc(x, sep, text);
    AppendAssoc(il + sep, tl, sep + text + sep + sep);
    AppendAssoc(il, sep, tl + (sep + text + sep + sep));
  }

  /** `ParseTimed` on a text already cut after its timing line. */
  lemma ParseTimedAt(rest: string, sep: string, tl: string, body: string, text: string)
    requires Span(rest, TimingChar) == |tl| && rest[..|tl|] == tl && rest[|tl|..] == body
    requires ParseBody(body, sep) == Some(text)
    requires ParseTiming(tl).Some?
    ensures ParseTimed(rest, sep) == Some((ParseTiming(tl).value.0, ParseTiming(tl).value.1, text))
  {
  }

  /** `ParseBlock` on a text already cut after its index line. */
  lemma ParseBlockAt(b: string, sep: string, n: int, rest: string, r: (int, int, string))
    requires ParseIndexLine(b, sep) == Some((n, rest))
    requires ParseTimed(rest, sep) == Some(r)
    ensures ParseBlock(b, sep) == Some((n, r.0, r.1, r.2))
  {
  }

  /**
   Index digits, a timing line and any text, laid out as a block with a
   separator that cannot continue a timing line, read back as those fields.
   */
  lemma BlockFieldsReadBack(il: string, tl: string, text: string, sep: string, idx: int, st: int, en: int)
    requires IsDigits(il) && ParseNat(il) == idx && il == Digits(idx)
    requires TimingChars(tl) && ParseTiming(tl) == Some((st, en))
    requires sep != [] && !TimingChar(sep[0])
    ensures ParseBlock(il + sep + tl + sep + text + sep + sep, sep) == Some((idx, st, en, text))
  {
    var body := sep + text + sep + sep;
    var rest := tl + body;
    var b := il + (sep + rest);
    BlockLayout(il, sep, tl, text);
    SplitIndexLine(il, sep, rest);
    SplitTimingLine(tl, body);
    SplitBody(sep, text);
    ParseTimedAt(rest, sep, tl, body, text);
    ParseBlockAt(b, sep, idx, rest, (st, en, text));
  }

  /**
   A block written for non-negative index and times reads back as its
   segment, whatever the text, for any separator that cannot continue a timing
   line (such as `\n` or `\r\n`).
   */
  lemma BlockReadsBack(s: Segment, sep: string)
    requires s.index >= 0 && s.startMs >= 0 && s.endMs >= 0
    requires sep != [] && !TimingChar(sep[0])
    ensures ParseBlock(Block(s, sep), sep) == Some((s.index, s.startMs, s.endMs, s.text))
  {
    ParseDigits(s.index);
    ParseNatInjective(IndexLine(s.index), Digits(s.index));
    BlockFieldsReadBack(IndexLine(s.index), TimingLine(s.startMs, s.endMs), s.text, sep, s.index, s.startMs, s.endMs);
  }

  /** The text of several blocks, one after the other. */
  function Blocks(segs: seq<Segment>, sep: string): string
  {
    Concat(segs, s => Block(s, sep))
  }

  lemma BlocksAppend(xs: seq<Segment>, ys: seq<Segment>, sep: string)
    ensures Blocks(xs + ys, sep) == Blocks(xs, sep) + Blocks(ys, sep)
  {
    ConcatAppend(xs, ys, s => Block(s, sep));
  }

  lemma BlocksOne(x: Segment, sep: string)
    ensures Blocks([x], sep) == Block(x, sep)
  {
    ConcatOne(x, s => Block(s, sep));
  }

  /**
   `startRecognition`: refused when the model is not ready or a session is
   running; otherwise the session clock starts at `now`, the segment counter at
   1 and the previous end at 0, and the loop runs.
   */
  function StartRecognition(a: App, now: int): (r: App)
    ensures !a.modelReady || a.running ==> r == a
    ensures a.modelReady && !a.running ==> r.running && r.sessionStart == now && r.srtIndex == 1
                                           && r.lastSegment == 0 && r.written == a.written
    ensures FileText(r) == FileText(a) && r.lastWords == a.lastWords && r.area == a.area
  {
    if !a.modelReady || a.running then a
    else a.(sessionStart := now, lastSegment := 0, srtIndex := 1, running := true)
  }

  /** `stopRecognition`, and the `finally` of the loop: `running` becomes false, nothing else changes. */
  function StopRecognition(a: App): (r: App)
    ensures !r.running && r == a.(running := false)
  {
    a.(running := false)
  }

  /** The button: ignored while disabled; otherwise it starts when not running and stops when running. */
  function Press(a: App, now: int): (r: App)
    ensures !StartEnabled(a) ==> r == a
    ensures StartEnabled(a) && !a.running ==> r == StartRecognition(a, now) && r.running
    ensures StartEnabled(a) && a.running ==> r == StopRecognition(a) && !r.running && r.written == a.written
  {
    if !StartEnabled(a) then a
    else if !a.running then StartRecognition(a, now)
    else StopRecognition(a)
  }

  /**
   `appendText`: shows the text, ends the segment at the session time `now`,
   appends its block to the file, and advances the counter and the previous end.
   */
  function AppendText(a: App, text: string, now: int): (r: App)
    ensures r.written == a.written + [Segment(a.srtIndex, a.lastSegment, now - a.sessionStart, text)]
    ensures r.srtIndex == a.srtIndex + 1 && r.lastSegment == now - a.sessionStart
    ensures r.lastWords == text && r.area == a.area + text + a.sep
    ensures r.running == a.running && r.sessionStart == a.sessionStart && r.sep == a.sep
    ensures r.existing == a.existing
  {
    var end := now - a.sessionStart;
    var seg := Segment(a.srtIndex, a.lastSegment, end, text);
    a.(lastWords := text, written := a.written + [seg], srtIndex := a.srtIndex + 1,
       lastSegment := end, area := a.area + text + a.sep)
  }

  /** The file grows by exactly the new block: index, timing line, text and a blank line. */
  lemma AppendTextWrites(a: App, text: string, now: int)
    ensures FileText(AppendText(a, text, now))
            == FileText(a) + Block(Segment(a.srtIndex, a.lastSegment, now - a.sessionStart, text), a.sep)
  {
    var seg := Segment(a.srtIndex, a.lastSegment, now - a.sessionStart, text);
    var r := AppendText(a, text, now);
    assert r.written == a.written + [seg] && r.existing == a.existing && r.sep == a.sep;
    BlocksAppend(a.written, [seg], a.sep);
    BlocksOne(seg, a.sep);
    AppendAssoc(a.existing, Blocks(a.written, a.sep), Block(seg, a.sep));
  }

  /** `handleResult` / `handlePartial`: only a non-empty final writes a block; a non-empty partial only updates the label. */
  function Feed(a: App, e: Event, now: int): (r: App)
    ensures Commits(e) ==> r == AppendText(a, e.text, now)
    ensures !Commits(e) ==> r.written == a.written && r.srtIndex == a.srtIndex && r.lastSegment == a.lastSegment
    ensures e.Partial? ==> r == a.(lastWords := if e.text == [] then a.lastWords else e.text)
    ensures e.text == [] ==> r == a
  {
    if e.text == [] then a
    else match e
      case Final(text) => AppendText(a, text, now)
      case Partial(text) => a.(lastWords := text)
  }

  /** What the recognition thread meets next: one read of the capture device, or a stop press. */
  datatype Step = Chunk(n: int, event: Event, now: int) | StopPressed

  /**
   The loop `while (running && !interrupted)`: read a chunk, leave on a negative
   length, otherwise feed it. A stop press clears `running`, so the loop ends at
   its next check.
   */
  function Loop(a: App, steps: seq<Step>): App
    decreases |steps|
  {
    if steps == [] || !a.running then a
    else match steps[0]
      case StopPressed => Loop(StopRecognition(a), steps[1..])
      case Chunk(n, e, now) =>
        if n < 0 then StopRecognition(a) else Loop(Feed(a, e, now), steps[1..])
  }

  /** The steps end the session: a stop press or an end of stream comes before they run out. */
  predicate Ends(steps: seq<Step>)
    decreases |steps|
  {
    steps != [] && (steps[0].StopPressed? || steps[0].n < 0 || Ends(steps[1..]))
  }

  /** The wall clock read by the chunks never goes back, and starts no earlier than `t`. */
  predicate ClockFrom(t: int, steps: seq<Step>)
    decreases |steps|
  {
    steps == [] ||
    match steps[0]
    case StopPressed => ClockFrom(t, steps[1..])
    case Chunk(_, _, now) => t <= now && ClockFrom(now, steps[1..])
  }

  /**
   The non-empty final texts the session commits, with the clock reading at each:
   those of the chunks before the first stop press or end of stream.
   */
  function SessionFinals(steps: seq<Step>): seq<(string, int)>
    decreases |steps|
  {
    if steps == [] || steps[0].StopPressed? || steps[0].n < 0 then []
    else (if Commits(steps[0].event) then [(steps[0].event.text, steps[0].now)] else [])
         + SessionFinals(steps[1..])
  }

  /**
   The blocks a session writes for the finals `f`, reference definition: numbered
   from `index`, the first starting at `prev`, each ending at its final's clock
   reading minus the session start `start` and the next starting there.
   */
  function Build(f: seq<(string, int)>, index: int, prev: int, start: int): seq<Segment>
    decreases |f|
  {
    if f == [] then []
    else [Segment(index, prev, f[0].1 - start, f[0].0)] + Build(f[1..], index + 1, f[0].1 - start, start)
  }

  /** The clock readings `f` carries never go back, and start no earlier than `t`. */
  predicate Ascending(t: int, f: seq<(string, int)>)
    decreases |f|
  {
    f == [] || (t <= f[0].1 && Ascending(f[0].1, f[1..]))
  }

  /** The finals of a session are read from a clock that never goes back. */
  lemma {:induction false} FinalsAscending(t: int, steps: seq<Step>)
    requires ClockFrom(t, steps)
    ensures Ascending(t, SessionFinals(steps))
    decreases |steps|
  {
    if steps != [] && !steps[0].StopPressed? && steps[0].n >= 0 {
      var s := steps[0];
      FinalsAscending(s.now, steps[1..]);
      if Commits(s.event) {
        assert SessionFinals(steps) == [(s.event.text, s.now)] + SessionFinals(steps[1..]);
        assert SessionFinals(steps)[1..] == SessionFinals(steps[1..]);
      } else {
        assert SessionFinals(steps) == SessionFinals(steps[1..]);
        AscendingEarlier(t, s.now, SessionFinals(steps[1..]));
      }
    }
  }

  lemma AscendingEarlier(t: int, u: int, f: seq<(string, int)>)
    requires t <= u && Ascending(u, f)
    ensures Ascending(t, f)
  {
  }

  /** The first block starts at 0 and every later block starts where the one before it ended. */
  predicate Contiguous(e: seq<Segment>)
  {
    && (|e| > 0 ==> e[0].startMs == 0)
    && forall i, j {:trigger e[i], e[j]} :: 0 <= i < |e| && 0 <= j < |e| && j == i + 1 ==> e[j].startMs == e[i].endMs
  }

  /** No block ends before it starts. */
  predicate Ordered(e: seq<Segment>)
  {
    forall i :: 0 <= i < |e| ==> e[i].startMs <= e[i].endMs
  }

  /** `Build` peels off one block per final. */
  lemma BuildFirst(f: seq<(string, int)>, index: int, prev: int, start: int)
    requires f != []
    ensures Build(f, index, prev, start)
            == [Segment(index, prev, f[0].1 - start, f[0].0)] + Build(f[1..], index + 1, f[0].1 - start, start)
  {
  }

  /** One chunk read while running: the loop goes on from the fed state, and the finals and the ending are those of the rest. */
  lemma LoopChunk(a: App, steps: seq<Step>)
    requires a.running && steps != [] && steps[0].Chunk? && steps[0].n >= 0
    ensures Loop(a, steps) == Loop(Feed(a, steps[0].event, steps[0].now), steps[1..])
    ensures Ends(steps) == Ends(steps[1..])
    ensures SessionFinals(steps)
            == (if Commits(steps[0].event) then [(steps[0].event.text, steps[0].now)] else []) + SessionFinals(steps[1..])
  {
  }

  /** A running session keeps its start, separator and earlier file, and stops exactly when the steps end it. */
  lemma {:induction false} LoopKeeps(a: App, steps: seq<Step>)
    requires a.running
    ensures var r := Loop(a, steps);
      && r.sessionStart == a.sessionStart && r.sep == a.sep && r.existing == a.existing
      && (r.running <==> !Ends(steps))
    decreases |steps|
  {
    if steps != [] && !steps[0].StopPressed? && steps[0].n >= 0 {
      LoopChunk(a, steps);
      LoopKeeps(Feed(a, steps[0].event, steps[0].now), steps[1..]);
    }
  }

  /** Feeding one event and then building the rest equals building from the event's final, if any, onwards. */
  lemma FeedThenBuild(a: App, e: Event, now: int, rest: seq<(string, int)>)
    ensures var a1 := Feed(a, e, now);
      && a1.running == a.running && a1.sessionStart == a.sessionStart
      && a1.written + Build(rest, a1.srtIndex, a1.lastSegment, a.sessionStart)
         == a.written + Build((if Commits(e) then [(e.text, now)] else []) + rest, a.srtIndex, a.lastSegment, a.sessionStart)
  {
    if Commits(e) {
      var f := [(e.text, now)] + rest;
      var seg := Segment(a.srtIndex, a.lastSegment, now - a.sessionStart, e.text);
      var tail := Build(rest, a.srtIndex + 1, now - a.sessionStart, a.sessionStart);
      assert f[1..] == rest;
      BuildFirst(f, a.srtIndex, a.lastSegment, a.sessionStart);
      assert (a.written + [seg]) + tail == a.written + ([seg] + tail);
    } else {
      assert [] + rest == rest;
    }
  }

  /**
   A running session fed with `steps` appends to the file exactly the blocks
   `Build` makes from its finals, continuing its counter and previous end.
   */
  lemma {:induction false} LoopWrites(a: App, steps: seq<Step>)
    requires a.running
    ensures Loop(a, steps).written == a.written + Build(SessionFinals(steps), a.srtIndex, a.lastSegment, a.sessionStart)
    decreases |steps|
  {
    if steps != [] && !steps[0].StopPressed? && steps[0].n >= 0 {
      var s := steps[0];
      LoopChunk(a, steps);
      LoopWrites(Feed(a, s.event, s.now), steps[1..]);
      FeedThenBuild(a, s.event, s.now, SessionFinals(steps[1..]));
    }
  }

  /**
   The shape of `Build`: one block per final, numbered consecutively from
   `index`, carrying the final's text and ending at its clock reading less
   `start`; the first starts at `prev`, every later one where the one before
   it ended.
   */
  lemma {:induction false} BuildShape(f: seq<(string, int)>, index: int, prev: int, start: int)
    ensures var b := Build(f, index, prev, start);
      && |b| == |f|
      && (forall i :: 0 <= i < |b| ==> b[i].index == index + i && b[i].text == f[i].0 && b[i].endMs == f[i].1 - start)
      && (|b| > 0 ==> b[0].startMs == prev)
      && (forall i, j {:trigger b[i], b[j]} :: 0 <= i < |b| && 0 <= j < |b| && j == i + 1 ==> b[j].startMs == b[i].endMs)
    decreases |f|
  {
    if f != [] {
      var b := Build(f, index, prev, start);
      var b' := Build(f[1..], index + 1, f[0].1 - start, start);
      BuildShape(f[1..], index + 1, f[0].1 - start, start);
      assert b == [b[0]] + b';
      forall i | 0 <= i < |b|
        ensures b[i].index == index + i && b[i].text == f[i].0 && b[i].endMs == f[i].1 - start
      {
        if i > 0 {
          assert b[i] == b'[i - 1];
        }
      }
      forall i, j | 0 <= i < |b| && 0 <= j < |b| && j == i + 1
        ensures b[j].startMs == b[i].endMs
      {
        assert b[j] == b'[j - 1];
        if i > 0 {
          assert b[i] == b'[i - 1];
        }
      }
    }
  }

  /** With clock readings that never go back from `prev + start`, no block ends before it starts. */
  lemma {:induction false} BuildOrdered(f: seq<(string, int)>, index: int, prev: int, start: int)
    requires Ascending(prev + start, f)
    ensures Ordered(Build(f, index, prev, start))
    decreases |f|
  {
    if f != [] {
      var b := Build(f, index, prev, start);
      var b' := Build(f[1..], index + 1, f[0].1 - start, start);
      assert prev + start <= f[0].1 && Ascending(f[0].1, f[1..]);
      assert f[0].1 - start + start == f[0].1;
      BuildOrdered(f[1..], index + 1, f[0].1 - start, start);
      assert b[0] == Segment(index, prev, f[0].1 - start, f[0].0);
      assert b == [b[0]] + b';
      forall i | 0 <= i < |b|
        ensures b[i].startMs <= b[i].endMs
      {
        if i > 0 {
          assert b[i] == b'[i - 1];
        }
      }
    }
  }

  /**
   A whole session, from the start press at `now`: the file gains exactly the
   blocks `Build` makes from the session's finals, numbered from 1 and starting
   at 0, and the session stops exactly when a stop press or an end of stream
   comes.
   */
  lemma SessionWrites(a: App, now: int, steps: seq<Step>)
    requires a.modelReady && !a.running
    ensures var r := Loop(StartRecognition(a, now), steps);
      && r.written == a.written + Build(SessionFinals(steps), 1, 0, now)
      && FileText(r) == FileText(a) + Blocks(Build(SessionFinals(steps), 1, 0, now), a.sep)
      && (r.running <==> !Ends(steps))
  {
    var s := StartRecognition(a, now);
    var b := Build(SessionFinals(steps), 1, 0, now);
    LoopWrites(s, steps);
    LoopKeeps(s, steps);
    BlocksAppend(a.written, b, a.sep);
    AppendAssoc(a.existing, Blocks(a.written, a.sep), Blocks(b, a.sep));
  }

  /**
   The blocks of a session: the N non-empty finals give blocks numbered exactly
   1..N in order, each with that final's text and ending at its time since the
   start `now`; the first starts at 0, every later one at the previous end, and
   none ends before it starts.
   */
  lemma SessionSegments(now: int, steps: seq<Step>)
    requires ClockFrom(now, steps)
    ensures var f := SessionFinals(steps);
      var e := Build(f, 1, 0, now);
      && |e| == |f|
      && (forall i :: 0 <= i < |e| ==> e[i].index == i + 1 && e[i].text == f[i].0 && e[i].endMs == f[i].1 - now)
      && Contiguous(e)
      && Ordered(e)
  {
    var f := SessionFinals(steps);
    BuildShape(f, 1, 0, now);
    FinalsAscending(now, steps);
    BuildOrdered(f, 1, 0, now);
  }
}

=== FILE: transcript_buffer.dfy ===
/**
 The rolling display of committed lines in VosTtsController: a deque of at most
 three labels, oldest first, where the newest is styled `transcript-new` and the
 others `transcript-old`. Lines are modelled by their text.
 */
module TranscriptBuffer {
  import opened Basics

  const Capacity: nat := 3

  datatype Style = TranscriptNew | TranscriptOld

  /** The newest `k` entries of `q` (all of them when there are fewer). */
  function Newest<T>(q: seq<T>, k: nat): seq<T>
  {
    if |q| <= k then q else q[|q| - k..]
  }

  /** `while (lines.size() > 3) lines.removeFirst()`: evicts from the front until the capacity is met. */
  function Evict(q: seq<string>): (r: seq<string>)
    ensures r == Newest(q, Capacity)
    decreases |q|
  {
    if |q| > Capacity then Evict(q[1..]) else q
  }

  /**
   Committing one line: `addLast` followed by the eviction loop. The new line is
   last; the oldest line goes only when the deque was already full.
   */
  function Push(lines: seq<string>, text: string): (r: seq<string>)
    ensures 1 <= |r| <= Capacity && r[|r| - 1] == text
    ensures |lines| < Capacity ==> r == lines + [text]
    ensures |lines| == Capacity ==> r == lines[1..] + [text]
  {
    Evict(lines + [text])
  }

  /** Committing several lines one after the other. */
  function PushAll(lines: seq<string>, texts: seq<string>): seq<string>
    decreases |texts|
  {
    if texts == [] then lines else PushAll(Push(lines, texts[0]), texts[1..])
  }

  /** The last `k` entries of a sequence lie in any suffix at least `k` long. */
  lemma SuffixOfAppend<T>(p: seq<T>, y: seq<T>, k: nat)
    requires |y| >= k
    ensures (p + y)[|p + y| - k..] == y[|y| - k..]
  {
    var x := p + y;
    var xs, ys := x[|x| - k..], y[|y| - k..];
    forall i | 0 <= i < k
      ensures xs[i] == ys[i]
    {
      assert x[|x| - k + i] == y[|y| - k + i];
    }
  }

  /** Cutting to the newest `k` before appending more does not change the newest `k` afterwards. */
  lemma NewestOfNewest<T>(q: seq<T>, s: seq<T>, k: nat)
    ensures Newest(Newest(q, k) + s, k) == Newest(q + s, k)
  {
    if |q| > k {
      var n := q[|q| - k..];
      assert q + s == q[..|q| - k] + (n + s);
      SuffixOfAppend(q[..|q| - k], n + s, k);
    }
  }

  /**
   However many lines are committed, the deque holds exactly the newest (at most
   three) of all lines ever shown, in commit order.
   */
  lemma {:induction false} PushAllKeepsNewest(lines: seq<string>, texts: seq<string>)
    requires |lines| <= Capacity
    ensures PushAll(lines, texts) == Newest(lines + texts, Capacity)
    decreases |texts|
  {
    if texts == [] {
      assert lines + texts == lines;
    } else {
      var p := Push(lines, texts[0]);
      PushAllKeepsNewest(p, texts[1..]);
      NewestOfNewest(lines + [texts[0]], texts[1..], Capacity);
      assert lines + [texts[0]] + texts[1..] == lines + texts;
    }
  }

  /**
   The restyling loop run after every commit: of `n` labels, exactly the last is
   `transcript-new` and all others `transcript-old`. The controller runs it over
   the labels of the deque as `WriteLine` leaves it, so `n` is that deque's
   length, at most `Capacity`; the styles are not stored in the controller state.
   */
  method Restyle(n: nat) returns (styles: seq<Style>)
    ensures |styles| == n
    ensures forall i :: 0 <= i < n ==> (styles[i] == TranscriptNew <==> i == n - 1)
  {
    styles := [];
    var i := 0;
    while i < n
      invariant 0 <= i <= n && |styles| == i
      invariant forall j :: 0 <= j < i ==> (styles[j] == TranscriptNew <==> j == n - 1)
    {
      if i == n - 1 {
        styles := styles + [TranscriptNew];
      } else {
        styles := styles + [TranscriptOld];
      }
      i := i + 1;
    }
  }
}

=== FILE: vos_controller.dfy ===
/**
 VosTtsController: the start/stop button, the pause/resume button, the gate of
 the recognition loop and the commit path of final results. The background
 worker is a sequential step function: each `Chunk` input is one iteration of
 its capture loop, interleaved with button presses in the order they happen.
 */
module VosController {
  import opened Basics
  import opened Recognition
  import opened SessionClock
  import TranscriptBuffer

  /**
   What `transcriptionTask` refers to. The executor has a single thread, so a
   task submitted while a loop is live waits in its queue; `cancel(true)` then
   removes it from the queue and does not interrupt the live loop.
   */
  datatype TaskRef =
    | NoTask
      /** The task whose loop is the live one, or was the last to run. */
    | LoopTask
      /** A task submitted while another loop was live, still queued or cancelled there. */
    | QueuedTask

  datatype Controller = Controller(
    modelReady: bool,
    running: bool,
    task: TaskRef,
    /** A recognition loop is executing. */
    workerLive: bool,
    clock: Clock,
    /** `writer != null`. */
    writerOpen: bool,
    /** What the current writer has written to its `transcript.txt`. */
    file: string,
    /** The display deque, oldest first. */
    lines: seq<string>,
    /** The text of the partial-result label. */
    partial: string,
    /** The line separator `BufferedWriter.newLine()` writes. */
    sep: string)

  /** The controller as `initialize` leaves it. */
  function Init(modelReady: bool, sep: string): Controller
  {
    Controller(modelReady, false, NoTask, false, SessionClock.Initial, false, [], [], [], sep)
  }

  /** The states reachable at wall-clock time `now`. */
  predicate Inv(c: Controller, now: int)
  {
    && (c.running ==> !c.clock.paused && c.task != NoTask)
    && (c.writerOpen ==> c.workerLive)
    && (c.workerLive ==> c.task != NoTask)
    && |c.lines| <= TranscriptBuffer.Capacity
    && Consistent(c.clock, now)
  }

  lemma InitInv(modelReady: bool, sep: string, now: int)
    requires now >= 0
    ensures Inv(Init(modelReady, sep), now)
  {
  }

  /**
   `startTranscription`: refused unless the model is ready; otherwise the session
   runs, unpaused, with elapsed time 0 at `now`, and a worker is submitted. The
   single-thread executor runs it at once when no loop is live, opening a fresh
   transcript; when one is still live (a press during a pause) the new task waits
   behind it, the task reference points to that queued task, and the live loop
   goes on writing through its own writer.
   */
  function StartTranscription(c: Controller, now: int): (r: Controller)
    ensures !c.modelReady ==> r == c
    ensures c.modelReady ==> r.running && !r.clock.paused && Elapsed(r.clock, now) == 0
                             && r.workerLive && r.partial == []
    ensures c.modelReady && !c.workerLive ==> r.task == LoopTask && r.writerOpen && r.file == []
    ensures c.modelReady && c.workerLive ==> r.task == QueuedTask
    ensures c.workerLive ==> r.writerOpen == c.writerOpen && r.file == c.file
    ensures r.lines == c.lines && r.modelReady == c.modelReady && r.sep == c.sep
  {
    if !c.modelReady then c
    else
      var r := c.(running := true, clock := Restart(c.clock, now), partial := [],
                  task := if c.workerLive then QueuedTask else LoopTask);
      if c.workerLive then r else r.(workerLive := true, writerOpen := true, file := [])
  }

  /**
   The worker's `finally` block, reached when the loop ends: the session stops
   running and the writer reference is cleared.
   */
  function WorkerExit(c: Controller): (r: Controller)
    ensures !r.running && !r.workerLive && !r.writerOpen
    ensures r.clock == c.clock && r.lines == c.lines && r.file == c.file && r.partial == c.partial
    ensures r.task == c.task && r.modelReady == c.modelReady && r.sep == c.sep
  {
    c.(running := false, workerLive := false, writerOpen := false)
  }

  /**
   `stopTranscription`: clears `running` and the writer and cancels the task the
   reference points to. When that is the live loop's own task, the interrupted
   loop leaves through its `finally`. When it is a task queued behind a live
   loop, only the queued task is cancelled and the live loop reads on, now
   without a writer. The clock fields, including `paused`, are left as they are.
   */
  function StopTranscription(c: Controller): (r: Controller)
    ensures !r.running && !r.writerOpen && r.partial == []
    ensures c.task == LoopTask ==> !r.workerLive
    ensures c.task != LoopTask ==> r.workerLive == c.workerLive
    ensures r.clock == c.clock && r.lines == c.lines && r.file == c.file && r.task == c.task
    ensures r.modelReady == c.modelReady && r.sep == c.sep
  {
    if c.task == LoopTask then WorkerExit(c).(partial := [])
    else c.(running := false, writerOpen := false, partial := [])
  }

  /**
   `onStart`: the one button stops a running session and otherwise starts one.
   Pausing clears `running`, so a press during a pause starts a new session.
   */
  function OnStart(c: Controller, now: int): (r: Controller)
    ensures c.running ==> r == StopTranscription(c) && !r.running && !r.writerOpen && r.file == c.file
    ensures !c.running ==> r == StartTranscription(c, now)
  {
    if c.running then StopTranscription(c) else StartTranscription(c, now)
  }

  /**
   `onPauseResume`: nothing happens before the first session; otherwise `paused`
   toggles and `running` becomes its negation. Pausing freezes elapsed time at
   its value at `now`; resuming continues from there without a jump.
   */
  function OnPauseResume(c: Controller, now: int): (r: Controller)
    ensures c.task == NoTask ==> r == c
    ensures c.task != NoTask ==> r.clock.paused == !c.clock.paused && r.running == !r.clock.paused
    ensures c.task != NoTask && !c.clock.paused ==> forall t :: Elapsed(r.clock, t) == Elapsed(c.clock, now)
    ensures c.task != NoTask && c.clock.paused ==> forall t :: Elapsed(r.clock, t) == Elapsed(c.clock, now) + (t - now)
    ensures r.workerLive == c.workerLive && r.writerOpen == c.writerOpen
    ensures r.lines == c.lines && r.file == c.file && r.partial == c.partial
    ensures r.task == c.task && r.modelReady == c.modelReady && r.sep == c.sep
  {
    if c.task == NoTask then c
    else
      var k := Toggle(c.clock, now);
      c.(clock := k, running := !k.paused)
  }

  /**
   `writeLine`: the line joins the display deque, and the transcript grows by
   the text and a line separator only while a writer is open. The file is only
   ever appended to.
   */
  function WriteLine(c: Controller, text: string): (r: Controller)
    ensures r.lines == TranscriptBuffer.Push(c.lines, text)
    ensures |r.file| == |c.file| + (if c.writerOpen then |text| + |c.sep| else 0)
    ensures r.file[..|c.file|] == c.file
    ensures c.writerOpen ==> r.file[|c.file|..] == text + c.sep
    ensures r.running == c.running && r.clock == c.clock && r.writerOpen == c.writerOpen
  {
    var r := c.(lines := TranscriptBuffer.Push(c.lines, text),
                file := if c.writerOpen then c.file + text + c.sep else c.file);
    assert c.writerOpen ==> r.file == c.file + (text + c.sep);
    r
  }

  /**
   `handleResult` / `handlePartial`: empty texts are ignored; a final commits a
   line and shows it; a partial only shows its text in the partial label.
   */
  function Feed(c: Controller, e: Event): (r: Controller)
    ensures e.text == [] ==> r == c
    ensures e.text != [] ==> r.partial == e.text
    ensures Commits(e) ==> r == WriteLine(c, e.text).(partial := e.text)
    ensures !Commits(e) ==> r.lines == c.lines && r.file == c.file
    ensures r.running == c.running && r.clock == c.clock && r.writerOpen == c.writerOpen
    ensures e.Partial? ==> r == c.(partial := if e.text == [] then c.partial else e.text)
  {
    if e.text == [] then c
    else match e
      case Final(text) => WriteLine(c, text).(partial := text)
      case Partial(text) => c.(partial := text)
  }

  /**
   One iteration of the capture loop of `runRecognition`: a negative read length
   ends the loop, and a chunk goes to the recognizer only while `running`; during
   a pause it is read and dropped.
   */
  function ReadChunk(c: Controller, n: int, e: Event): (r: Controller)
    ensures !c.workerLive ==> r == c
    ensures c.workerLive && n < 0 ==> r == WorkerExit(c) && !r.running && !r.workerLive && !r.writerOpen
    ensures c.workerLive && n >= 0 && c.running ==> r == Feed(c, e)
    ensures !c.running ==> r.lines == c.lines && r.file == c.file && r.partial == c.partial
    ensures r.clock == c.clock
  {
    if !c.workerLive then c
    else if n < 0 then WorkerExit(c)
    else if c.running then Feed(c, e)
    else c
  }

  /** What can happen next: a press of either button at time `now`, or one read of the capture loop. */
  datatype Input = Press(now: int) | PauseResume(now: int) | Chunk(n: int, event: Event)

  function Step(c: Controller, i: Input): Controller
  {
    match i
    case Press(now) => OnStart(c, now)
    case PauseResume(now) => OnPauseResume(c, now)
    case Chunk(n, e) => ReadChunk(c, n, e)
  }

  function Run(c: Controller, inputs: seq<Input>): Controller
    decreases |inputs|
  {
    if inputs == [] then c else Run(Step(c, inputs[0]), inputs[1..])
  }

  /** The button presses come at non-decreasing times, none before `t`. */
  predicate TimesFrom(t: int, inputs: seq<Input>)
    decreases |inputs|
  {
    inputs == [] ||
    match inputs[0]
    case Chunk(_, _) => TimesFrom(t, inputs[1..])
    case Press(now) => t <= now && TimesFrom(now, inputs[1..])
    case PauseResume(now) => t <= now && TimesFrom(now, inputs[1..])
  }

  /** The wall-clock time after `inputs`, starting from `t`. */
  function LastTime(t: int, inputs: seq<Input>): int
    decreases |inputs|
  {
    if inputs == [] then t
    else match inputs[0]
      case Chunk(_, _) => LastTime(t, inputs[1..])
      case Press(now) => LastTime(now, inputs[1..])
      case PauseResume(now) => LastTime(now, inputs[1..])
  }

  /** Every single step keeps the reachable-state invariant. */
  lemma StepInv(c: Controller, t: int, i: Input)
    requires Inv(c, t)
    requires i.Chunk? || t <= i.now
    ensures Inv(Step(c, i), if i.Chunk? then t else i.now)
  {
    match i
    case Chunk(n, e) =>
    case Press(now) =>
      ConsistentLater(c.clock, t, now);
    case PauseResume(now) =>
      ConsistentLater(c.clock, t, now);
  }

  /**
   Along any run with a monotone clock the invariant holds: `running` implies
   not paused and a task, an open writer belongs to a live loop, a live loop
   has a task, the display holds at most three lines, and the clock stays
   consistent.
   */
  lemma {:induction false} RunInv(c: Controller, t: int, inputs: seq<Input>)
    requires Inv(c, t) && TimesFrom(t, inputs)
    ensures Inv(Run(c, inputs), LastTime(t, inputs))
    decreases |inputs|
  {
    if inputs != [] {
      var i := inputs[0];
      StepInv(c, t, i);
      RunInv(Step(c, i), if i.Chunk? then t else i.now, inputs[1..]);
    }
  }

  predicate AllChunks(inputs: seq<Input>)
  {
    forall k :: 0 <= k < |inputs| ==> inputs[k].Chunk?
  }

  /**
   While the session is not running (in particular while paused) the loop keeps
   reading but nothing reaches the display, the transcript or the clock.
   */
  lemma {:induction false} ReadsWhileNotRunningChangeNothing(c: Controller, chunks: seq<Input>)
    requires !c.running && AllChunks(chunks)
    ensures var r := Run(c, chunks);
      r.lines == c.lines && r.file == c.file && r.partial == c.partial && r.clock == c.clock
    decreases |chunks|
  {
    if chunks != [] {
      var r1 := Step(c, chunks[0]);
      assert !r1.running;
      ReadsWhileNotRunningChangeNothing(r1, chunks[1..]);
    }
  }

  /** The texts of the non-empty final results among the chunks, in order. */
  function CommittedTexts(chunks: seq<Input>): seq<string>
    requires AllChunks(chunks)
    decreases |chunks|
  {
    if chunks == [] then []
    else (if Commits(chunks[0].event) then [chunks[0].event.text] else [])
         + CommittedTexts(chunks[1..])
  }

  /**
   One chunk read while running with an open writer: the transcript and the
   display after it and any later lines are those of the line it commits, if
   any, followed by the later lines.
   */
  lemma ChunkThenRest(c: Controller, ch: Input, rest: seq<string>)
    requires c.running && c.workerLive && c.writerOpen && |c.lines| <= TranscriptBuffer.Capacity
    requires ch.Chunk? && ch.n >= 0
    ensures var c1 := Step(c, ch);
      var add := if Commits(ch.event) then [ch.event.text] else [];
      && c1.running && c1.workerLive && c1.writerOpen && c1.sep == c.sep
      && |c1.lines| <= TranscriptBuffer.Capacity
      && c1.file + Lines(rest, c.sep) == c.file + Lines(add + rest, c.sep)
      && TranscriptBuffer.Newest(c1.lines + rest, TranscriptBuffer.Capacity)
         == TranscriptBuffer.Newest(c.lines + (add + rest), TranscriptBuffer.Capacity)
  {
    var c1 := Step(c, ch);
    if Commits(ch.event) {
      var text := ch.event.text;
      assert c1.file == c.file + text + c.sep;
      LinesCons(text, rest, c.sep);
      AppendAssoc(c.file, text + c.sep, Lines(rest, c.sep));
      AppendAssoc(c.file, text, c.sep);
      TranscriptBuffer.NewestOfNewest(c.lines + [text], rest, TranscriptBuffer.Capacity);
      AppendAssoc(c.lines, [text], rest);
    } else {
      assert [] + rest == rest;
    }
  }

  /**
   While running with an open writer and no end of stream, the committed lines
   are exactly the non-empty finals in order; the transcript grows by each of
   them plus a separator, and the display shows the newest three of all lines.
   */
  lemma {:induction false} ReadsWhileRunningCommitFinals(c: Controller, chunks: seq<Input>)
    requires c.running && c.workerLive && c.writerOpen
    requires |c.lines| <= TranscriptBuffer.Capacity
    requires AllChunks(chunks) && forall k :: 0 <= k < |chunks| ==> chunks[k].n >= 0
    ensures var r := Run(c, chunks);
      && r.running && r.workerLive && r.writerOpen
      && r.file == c.file + Lines(CommittedTexts(chunks), c.sep)
      && r.lines == TranscriptBuffer.Newest(c.lines + CommittedTexts(chunks), TranscriptBuffer.Capacity)
    decreases |chunks|
  {
    if chunks == [] {
      assert c.file + Lines([], c.sep) == c.file;
      assert c.lines + [] == c.lines;
    } else {
      var rest := CommittedTexts(chunks[1..]);
      assert CommittedTexts(chunks)
             == (if Commits(chunks[0].event) then [chunks[0].event.text] else []) + rest;
      ReadsWhileRunningCommitFinals(Step(c, chunks[0]), chunks[1..]);
      ChunkThenRest(c, chunks[0], rest);
    }
  }

  predicate NoPress(inputs: seq<Input>)
  {
    forall k :: 0 <= k < |inputs| ==> !inputs[k].Press?
  }

  /**
   Once the writer is cleared it stays cleared: whatever reads and pause/resume
   presses follow (a resume may even set `running` again, and a loop may still
   be live), nothing more is written to the transcript.
   */
  lemma {:induction false} NothingWrittenAfterStop(c: Controller, inputs: seq<Input>)
    requires !c.writerOpen && NoPress(inputs)
    ensures Run(c, inputs).file == c.file
    decreases |inputs|
  {
    if inputs != [] {
      var c1 := Step(c, inputs[0]);
      assert !c1.writerOpen && c1.file == c.file;
      NothingWrittenAfterStop(c1, inputs[1..]);
    }
  }

  /**
   A press during a pause takes the start branch: a new session begins with
   elapsed time 0 and the clock unpaused, while a still-live loop keeps its
   writer and its transcript.
   */
  lemma PressDuringPauseStartsSession(c: Controller, now: int)
    requires Inv(c, now) && c.clock.paused && c.modelReady
    ensures var r := OnStart(c, now);
      && r.running && !r.clock.paused && Elapsed(r.clock, now) == 0
      && (c.workerLive ==> r.task == QueuedTask && r.writerOpen == c.writerOpen && r.file == c.file)
  {
  }

  /**
   Stopping keeps the task reference, so the pause/resume button still works
   afterwards: a pause and a resume after a stop set `running` again with no
   writer behind it (and, when the stop ended the session's own loop, no loop
   at all), and the next press of the start button then takes the stop branch
   instead of starting a session.
   */
  lemma ResumeAfterStopSwallowsStart(c: Controller, t0: int, t1: int, t2: int, t3: int)
    requires c.running && c.task != NoTask && !c.clock.paused
    ensures var r0 := OnStart(c, t0);
      var r1 := OnPauseResume(OnPauseResume(r0, t1), t2);
      var r2 := OnStart(r1, t3);
      && !r0.running && !r0.writerOpen && (c.task == LoopTask ==> !r0.workerLive)
      && r1.running && !r1.writerOpen && r1.workerLive == r0.workerLive
      && !r2.running && !r2.writerOpen && r2.workerLive == r0.workerLive
  {
  }

  /**
   A press during a pause queues a task behind the live loop, so the next press
   cancels only that queued task: the live loop keeps reading without a writer.
   After one more press sets `running` again, its finals reach the display but
   the transcript no longer changes.
   */
  lemma StopAfterQueuedStartKeepsLoop(c: Controller, t0: int, t1: int, t2: int, n: int, text: string)
    requires c.clock.paused && !c.running && c.modelReady && c.workerLive
    requires n >= 0 && text != []
    ensures var r0 := OnStart(c, t0);
      var r1 := OnStart(r0, t1);
      var r2 := OnStart(r1, t2);
      var r3 := ReadChunk(r2, n, Final(text));
      && r0.running && r0.task == QueuedTask
      && !r1.running && r1.workerLive && !r1.writerOpen
      && r2.running && r2.workerLive && !r2.writerOpen
      && r3.lines == TranscriptBuffer.Push(c.lines, text) && r3.file == c.file
  {
  }
}
